=== FILE: README.md ===
# assrender compositing core in Dafny

This project models the subtitle compositing engine of assrender's
`src/render.c`. It has three parts:

- **Conversion matrix.** `FillMatrix` and `BuildMatrix` build the
  fixed-point RGB to YUV matrix for a colorimetry setting (BT.601, BT.709,
  BT.2020, FCC, SMPTE 240M, each in limited or full range). Any other
  setting leaves the matrix invalid, which means RGB passthrough.
- **Accumulator.** `make_sub_img` and `make_sub_img16` turn each glyph's
  packed colour into three components (`col2rgb` / `col2yuv`). They then
  composite the glyph list, in order, into four frame-sized planes:
  coverage plus three colour components. The 16-bit variant stretches or
  shifts the colour to the target depth.
- **Compositors.** Fifteen `apply_*` routines lay the accumulated overlay
  over a video frame:
  - packed B, G, R (A) at 8 and 16 bits;
  - YUY2;
  - planar 4:2:0, 4:2:2 and 4:4:4 at 8 and 16 bits, and planar 4:1:1 at
    8 bits;
  - luma-only frames.

  Each frame format has its own pixel layout and its own rule for how
  many luma samples share one chroma sample.

Modules, in dependency order:

- `Primitives` (`primitives.dfy`):
  - integer widths and the stores that narrow a value to 8, 16 or 32 bits;
  - safe reads;
  - the per-pixel macros of `render.h` as an `Ops` record of functions.
- `Layout` (`layout.dfy`):
  - the address arithmetic `row * pitch + col * step + lane` and its
    inverse `Locate`;
  - one verified nested loop (`Sweep`, and `SweepLanes` for several
    samples per pixel). It rewrites the addressed samples of a strided
    block, and its contract gives the result of every buffer sample in
    closed form.
- `Matrix` (`matrix.dfy`):
  - range constants;
  - the exact coefficients, in real arithmetic;
  - the matrix as the code rounds it (`BuildMatrix`), and the matrix
    rounded to nearest (`BuildMatrixNearest`) for comparison;
  - selection by setting.
- `Channels` (`channels.dfy`): `col2rgb`, `col2yuv`, the transparency
  complement, and the 8-bit to N-bit stretch and shift.
- `Accumulator` (`accumulator.dfy`):
  - glyphs and the four-plane overlay;
  - the reference `Accumulate`, a fold over the glyph list in frame
    coordinates;
  - the loop implementation `Render`, built on sweeps and proved equal to
    the reference;
  - `MakeSubImg` and `MakeSubImg16`.
- `Packed` (`packed.dfy`): the packed-format compositors. Each is proved
  equal, sample by sample, to a closed-form reference.
- `Planar` (`planar.dfy`): the planar and luma-only compositors, stated
  per sample through the group of luma samples that shares a chroma
  sample.

Frames and planes are `seq<int>`. Every C store into `uint8_t`,
`uint16_t` or `uint32_t` is written as an explicit reduction modulo 2^8,
2^16 or 2^32. The 16-bit routines take the pitch in bytes and halve it
(`SamplePitch`), as the code does.

Each matrix coefficient is stored as `(int)(x + 0.5)`. The `+ 0.5` is
meant to round to nearest, but C's conversion truncates toward zero, so
every negative coefficient below -1/2 lands one unit above the nearest
integer, unless `x + 0.5` is a whole number. `Matrix.BuildMatrix` and `Matrix.FillMatrix` round as the code
does (`Matrix.RoundAsWritten`), so a chroma row can add up to as much as
3 instead of 0. `Matrix.BuildMatrixNearest` is the matrix rounded to
nearest, and Findings reports the difference.

## Model

| member | source | states |
|---|---|---|
| Matrix.RangeConstants | src/render.c:9-18 | The luma offset equals the luma minimum. Luma and chroma code limits are ordered and lie inside the bit depth. `sy` is the luma span, and `suv` is half the chroma span rounded down. |
| Matrix.RangesByDepth | src/render.c:9-18 | At every depth from 8 to 16 bits: full range spans `2^bpp - 1` luma codes and `2^(bpp-1) - 1` chroma half-codes, with offset 0. Limited range spans `219 * 2^(bpp-8)` and `112 * 2^(bpp-8)`, with offset `16 * 2^(bpp-8)`. |
| Matrix.EightBitRanges | src/render.c:9-18 | The concrete 8-bit constants: (0, 0, 255, 255, 0, 255, 127) in full range and (16, 16, 235, 219, 16, 240, 112) in limited range. |
| Matrix.RoundAsWritten | src/render.c:25-33 | The code's `(int)(x + 0.5)` agrees with rounding to nearest whenever `x + 0.5` is not negative. Otherwise it is the nearest integer or one more, and always lies in `(x - 1/2, x + 3/2)`. |
| Matrix.AsWrittenMisroundsNegatives | src/render.c:25-33 | When `x + 0.5` is negative and not a whole number, the written rounding lands exactly one above the nearest integer. |
| Matrix.Bt601ChromaGreenMisrounded | src/render.c:29 | For limited-range BT.601 at 8 bits, the code stores `u_g` as -19070 while the nearest integer is -19071. |
| Matrix.Bt601ChromaRowAsWritten | src/render.c:31-33 | For limited-range BT.601 at 8 bits, the code stores the V row as 28784, -24102, -4680, which adds up to 2. Rounded to nearest it is 28784, -24103, -4681, which adds up to 0. |
| Matrix.ExactCoefficients | src/render.c:22-33 | The exact luma row adds up to the luma unit `sy * 2^shift / (2^bpp - 1)`, because Kg is `1 - Kr - Kb`. Each exact chroma row adds up to zero. `u_b` and `v_r` are not negative, and neither is the luma row when the weights are not. |
| Matrix.ExactIsProportional | src/render.c:22-33 | Every exact coefficient in terms of the weights: the luma row is Kr, Kg, Kb times the luma unit. The U row is the chroma unit on blue and Kr, Kg times the unit over `Kb - 1`. The V row is the chroma unit on red and Kg, Kb times the unit over `Kr - 1`. |
| Matrix.ProportionalSums | src/render.c:22-33 | Coefficients with those proportions have a luma row adding up to the luma unit and chroma rows adding up to zero, with the stated signs. |
| Matrix.AsWrittenRow | src/render.c:25-33 | Three values rounded as the code rounds them add up to within `(-3/2, 9/2)` of their exact sum. That narrows to `(-3/2, 7/2)` when any one of them is not negative, and to 3/2 either way when none is below -1/2. |
| Matrix.RoundedSum | src/render.c:25-33 | Three values rounded to nearest add up to within 3/2 of their exact sum. |
| Matrix.BuildMatrix | src/render.c:4-36 | The matrix is valid and its luma offset is the range's minimum. Every stored coefficient lies in `(x - 1/2, x + 3/2]` of its exact value `x`. The luma row adds up to within 3/2 of the luma unit for non-negative weights, and within `(-3/2, 9/2)` otherwise. Each chroma row adds up to a value from -1 to 3. |
| Matrix.BuildMatrixNearest | src/render.c:4-36 | The matrix the `+ 0.5` intends: every coefficient lies within 1/2 of its exact value, the luma row within 3/2 of the luma unit, and each chroma row adds up to -1, 0 or 1. |
| Matrix.AsWrittenAgainstNearest | src/render.c:25-33 | Each coefficient the code stores is the nearest one or one more. `u_b` and `v_r` always agree, and for non-negative weights the whole luma row agrees too. |
| Matrix.FillMatrix | src/render.c:38-81 | The matrix is valid exactly for the ten recognised settings. "None" and unknown settings clear `valid` and leave every other field as it was. A valid matrix has luma offset 0 (full range) or 16 (limited range), a luma row within 3/2 of the luma unit `sy * 2^16 / 255`, and chroma rows that add up to -1..3. The weights come from `StandardWeights`; the "PC" settings select full range (`FullScale`) and the "BT"/"TV" settings limited range. |
| Matrix.StandardWeights | src/render.c:48-77 | The Kr and Kb each setting passes. All three weights are positive, and the derived green weight equals the value noted beside each call: 0.587, 0.7152, 0.6780, 0.590 and 0.701. |
| Matrix.WhiteLuma | src/render.c:25-27 | For every recognised setting, 255 times the luma row sum lies within 383 of `sy * 2^16`, so white reaches the top luma code before the division. |
| Channels.Col2Rgb | src/render.c:83-88 | Three bytes, equal to the red, green and blue channels when those are bytes, and congruent to them modulo 256 otherwise. |
| Channels.Col2Yuv | src/render.c:90-95 | Three bytes, each congruent modulo 256 to its matrix row divided by 2^16, plus the luma offset or the chroma midpoint 128. |
| Channels.GreyIsNeutral | src/render.c:92-94 | For any matrix `FillMatrix` builds, a grey colour's chroma rows lie between -255 and 765 before the division by 2^16. |
| Channels.GreyBecomesNeutral | src/render.c:92-94 | A grey colour gets chroma 128 in both rows whenever the division by 2^16 rounds to within half a step on -255..765, the values those rows can take. |
| Channels.WhiteIsTopLuma | src/render.c:92 | For any matrix `FillMatrix` builds, white's luma row lies within 383 of `sy * 2^16` before the division. |
| Channels.WhiteBecomesTopCode | src/render.c:92 | White gets luma 255 in full range and 235 in limited range whenever the division by 2^16 rounds to within half a step on the values its luma row can take. |
| Channels.BlackIsBottomLuma | src/render.c:92-94 | For any matrix `FillMatrix` builds, black becomes luma 0 (full range) or 16 (limited range) with chroma 128, given only that the division sends 0 to 0. |
| Channels.GlyphColour | src/render.c:111-115 | The glyph colour is the YUV conversion when the matrix is valid and the RGB channels otherwise, always three bytes. |
| Channels.Transparency | src/render.c:179 | For a 32-bit colour the factor is `255 - alpha` and lies in 0..255. The 8-bit accumulator's value is always a byte. |
| Channels.Stretch | src/render.c:180-186 | The stretched component is a `bpp`-bit code within half a step of `c * (2^bpp - 1) / 255`. |
| Channels.StretchEnds | src/render.c:180-186 | Black stays 0, and 255 becomes the top code `2^bpp - 1`. |
| Channels.Widen | src/render.c:187-192 | The shifted component is a `bpp`-bit code that is a multiple of `2^(bpp-8)`. Dividing it by `2^(bpp-8)` gives back the 8-bit component. |
| Channels.WideColour | src/render.c:180-192 | The wide colour fits the depth. For YUV targets, each component shifted back gives the 8-bit component. |
| Layout.Locate | src/render.c:248-252 | An offset splits into row, pixel and lane such that `row * pitch + col * step + lane` rebuilds it, with the lane below `step` and the pixel inside the row. |
| Layout.LocateIndex | src/render.c:248-252 | Locating the address of (row, pixel, lane) gives back that triple whenever the lane fits the step and the pixel fits the pitch. |
| Layout.Sweep | src/render.c:124-148 | The nested row and column loop over one lane of a strided block: every sample it addresses and touches gets its new value, and every other sample is unchanged. |
| Layout.SweepLanes | src/render.c:248-268 | The same loop writing the first `lanes` samples of each pixel. Each buffer sample ends up as the closed form `LaneSwept`. |
| Accumulator.Ink | src/render.c:175-192 | The narrow accumulator draws in the 8-bit glyph colour. The wide one draws in that colour stretched (RGB) or shifted (YUV), and the result fits the plane's sample width. |
| Accumulator.Coverage | src/render.c:203 | A bitmap sample's coverage `div255(src * a1)` is a byte, and it is 0 when the glyph is fully transparent. |
| Accumulator.Cover | src/render.c:128-138 | The new coverage fits the sample width. Over no prior coverage it is the glyph's coverage. Over byte coverage it stays a byte. |
| Accumulator.Mix | src/render.c:129-137 | The new colour component fits the sample width. Over no prior coverage it is the glyph's component. |
| Accumulator.Over | src/render.c:126-140 | Zero coverage leaves the position unchanged. Over an empty position, the glyph's coverage and colour are copied verbatim. |
| Accumulator.FootprintExact | src/render.c:119-125 | The samples a glyph's loop addresses, from `dst_y * width + dst_x` in rows `width` apart, are exactly the frame positions under the glyph, at the matching bitmap row and column. |
| Accumulator.PaintedColour | src/render.c:126-140 | One colour plane's sweep changes exactly the frame positions under the glyph where it adds coverage, mixing in the ink component over the coverage already there. |
| Accumulator.PaintedCoverage | src/render.c:126-140 | The coverage plane's sweep changes exactly the frame positions under the glyph where it adds coverage, to the combined coverage. |
| Accumulator.PaintGlyph | src/render.c:124-148 | The per-glyph loop over the four planes produces the reference `Paint`, defined position by position in frame coordinates. |
| Accumulator.Render | src/render.c:104-151 | The loop over the glyph list produces the reference fold `Accumulate`, which skips empty glyphs. |
| Accumulator.MakeSubImg | src/render.c:97-152 | The 8-bit accumulator produces `Accumulate` for the narrow target. |
| Accumulator.MakeSubImg16 | src/render.c:154-231 | The wide accumulator produces `Accumulate` for a `bpp`-bit RGB or YUV target. |
| Accumulator.AccumulateAppend | src/render.c:104-151 | Drawing `xs` and then `ys` equals drawing `xs + ys`. |
| Accumulator.EmptyGlyphIgnored | src/render.c:105-109 | A glyph of zero width or height anywhere in the list changes nothing. |
| Accumulator.Untouched | src/render.c:124-148 | A position that no glyph covers keeps its four samples. |
| Accumulator.TransparentGlyphIgnored | src/render.c:116-127 | A glyph whose colour has alpha 255 changes nothing. |
| Accumulator.FirstWriterCopies | src/render.c:134-139 | The first glyph with non-zero coverage at a still-empty position copies its coverage and colour components there. |
| Accumulator.CoverageStaysByte | src/render.c:203-217 | Starting from byte coverage, every coverage sample stays in 0..255 after any glyph list, also in the 16-bit planes. |
| Packed.AlphaOver | src/render.c:248-268 | Compositing onto B, G, R, A pixels: each sample equals the reference `AlphaOverSample`. The colour lanes are `dblend`ed with the pixel's original alpha, alpha becomes `div255` of the combined coverage, and only covered pixels inside the frame change. |
| Packed.OpaqueOver | src/render.c:285-302 | Compositing onto opaque B, G, R pixels of `step` samples: each sample equals `OpaqueOverSample`. Only the first three samples of covered pixels change. |
| Packed.ApplyRgba | src/render.c:233-269 | 8-bit B, G, R, A: the result is `AlphaOverSample` at every sample, and samples of uncovered pixels are unchanged. |
| Packed.ApplyRgb | src/render.c:271-303 | 8-bit three-sample B, G, R: the result is `OpaqueOverSample`, and uncovered pixels are unchanged. |
| Packed.ApplyRgb32 | src/render.c:305-337 | 8-bit four-sample B, G, R, X: the result is `OpaqueOverSample`, uncovered pixels are unchanged, and the fourth sample of a pixel is never written. |
| Packed.ApplyRgb64 | src/render.c:339-380 | 16-bit B, G, R, A with the byte pitch halved: `AlphaOverSample` at every sample, and uncovered pixels are unchanged. |
| Packed.ApplyRgb48 | src/render.c:382-419 | 16-bit three-sample B, G, R with the byte pitch halved: `OpaqueOverSample`, and uncovered pixels are unchanged. |
| Packed.ApplyYuy2 | src/render.c:421-468 | Every Y0 U Y1 V pair starting below `width` whose two coverages add up to non-zero is rewritten: lumas with `blend`, chroma with `blend2`. All other samples are unchanged. |
| Packed.PairCount | src/render.c:443 | The loop `j < width; j += 2` visits pair `k` exactly when `2 * k < width`. |
| Packed.PairCoverageNonZero | src/render.c:444 | With non-negative coverage, a pair is composited exactly when one of its two pixels is covered. |
| Planar.BlendLuma | src/render.c:503-510 | Each luma sample equals `LumaSample`: it is blended with its own coverage and luma when its group is visited and the group's summed coverage is non-zero, and is unchanged otherwise. |
| Planar.BlendChroma | src/render.c:511-518 | Each chroma sample equals `ChromaSample`: the blend of its group's members when the group is visited and covered, and unchanged otherwise. |
| Planar.Composite | src/render.c:503-544 | All three planes are composited as `Composited` states: luma from plane 1, U from plane 2, V from plane 3. |
| Planar.ApplyYv12 | src/render.c:470-545 | 8-bit 4:2:0, with 2x2 groups over row pairs: `Composited` with luma pitch `pitch[0]` and chroma pitch `pitch[1]`. |
| Planar.ApplyYuv420 | src/render.c:547-631 | 16-bit 4:2:0: `Composited` with both byte pitches halved. |
| Planar.ApplyYv411 | src/render.c:633-676 | 8-bit 4:1:1: `Composited` over `width / 4` groups of four. Luma columns from `4 * (width / 4)` on are never written. |
| Planar.ApplyYv16 | src/render.c:678-724 | 8-bit 4:2:2, with pairs along each row: `Composited`. |
| Planar.ApplyYuv422 | src/render.c:726-780 | 16-bit 4:2:2: `Composited` with both byte pitches halved. |
| Planar.ApplyYv24 | src/render.c:782-813 | 8-bit 4:4:4: `Composited`, with all three planes addressed through `pitch[0]`. |
| Planar.ApplyYuv444 | src/render.c:815-854 | 16-bit 4:4:4, also planar RGB: `Composited`, with all planes using half of `pitch[0]`. |
| Planar.ApplyY8 | src/render.c:856-877 | 8-bit luma only: every sample is `LumaSample` with one-sample groups. |
| Planar.ApplyY | src/render.c:879-907 | 16-bit luma only: `LumaSample` with the byte pitch halved. |
| Planar.GroupCoverageNonZero | src/render.c:506 | With non-negative coverage, a group's summed coverage is non-zero exactly when some member of the group is covered. |

## Left out

- `assrender_get_frame_vs` (render.c:909-974) is host glue and is not modelled. It copies the frame, computes the timestamp, calls libass, and gathers plane addresses and pitches. When libass reports a change, it zeroes the coverage plane `sub_img[0]` and calls the accumulator (`ud->f_make_sub_img`). Whenever libass returns a non-empty image list, it calls the compositor (`ud->apply`) on the overlay kept from the last change, rebuilding that overlay first when `changed` is set. A frame with no images is returned as copied. Which routines those hold is chosen outside this file. The three colour planes are not zeroed and keep the previous values; the first-writer copy (`Accumulator.FirstWriterCopies`) overwrites them wherever a glyph lands on zero coverage. This is why `Accumulator.Render` and `Accumulator.MakeSubImg` accept any starting overlay.
- `render.h` is not part of this model. Its macros (`_r`, `_g`, `_b`, `_a`, `div255`, `div65536`, `scale`, `blend`, `blend2`, `blend4`, `dblend`) are parameters, namely the function fields of `Primitives.Ops`. The only facts assumed about them are the four in `Ops.Valid`: alpha is a byte, `div255(0) == 0`, `div255` of a product of two bytes is a byte, and `scale(a, 255, d)` of bytes is at most 65025.
- Floating point is not modelled. The coefficients and the stretch are computed in exact real arithmetic, so the double- and single-precision rounding of the products is not represented.
- Channels.Stretch: uses exact reals where the code uses single-precision `float`. A halfway case that `float` would round differently is therefore not represented.
- Channels.Col2Yuv: states only congruence modulo 256, because `div65536` is not part of this model.
- Matrix.BuildMatrix: its contract places each coefficient in `(x - 1/2, x + 3/2]` of its exact value. Which of the two integers there it is, is fixed only by its definition (`Matrix.AsWrittenAgainstNearest` relates it to the nearest one).
- Matrix.FillMatrix: no longer promises chroma rows adding up to -1..1. The code's rounding lets them reach 3 (see Findings), so only -1..3 is stated. `Matrix.BuildMatrixNearest` keeps -1..1.
- Channels.GreyIsNeutral: no longer promises chroma rows within 255 of zero, for the same reason. The bound is -255..765.
- Reading `uint8_t**` buffers as `uint16_t**` is modelled as planes of samples whose width is recorded in `Depth`.
- Negative pitches (bottom-up frames) are not modelled. Pitches are natural numbers.
- The C code has no bounds checks. Every read and write it makes is required to lie inside the buffers (`Glyph.Placed`, `Overlay.Spans`, `BlockFits`).
- Layout.SweepLanes: requires each row's addressed pixels to lie within one pitch (`cols * step <= pitch`). Frames whose rows overlap in memory are not modelled, and every compositor inherits this requirement.
- `make_sub_img` never reads its `bits_per_pixel` and `rgb` arguments, so they are dropped. The glyph linked list (`img->next`) is a sequence.
- The 32-bit `uint32_t` loop counters never overflow for frame sizes that fit in memory, so their wrap-around is not modelled.

## Findings

| source | as written | input that shows it | evidently intended | confidence | as-written member | corrected member |
|---|---|---|---|---|---|---|
| src/render.c:25-33 | `(int)(x + 0.5)` truncates toward zero, so a negative coefficient whose fractional part is not exactly one half is rounded one unit above the nearest integer | limited-range BT.601 at 8 bits, `u_g`: exact value about -19070.503, stored as -19070 | the nearest integer, -19071, as the `+ 0.5` does for positive coefficients | high, not executed | Matrix.Bt601ChromaGreenMisrounded | Matrix.BuildMatrixNearest |
| src/render.c:31-33 | the two negative V coefficients are each rounded one unit high, so the row does not cancel | limited-range BT.601 at 8 bits: 28784 - 24102 - 4680 = 2 | a row adding up to -1, 0 or 1, here 28784 - 24103 - 4681 = 0 | high, not executed | Matrix.Bt601ChromaRowAsWritten | Matrix.BuildMatrixNearest |

=== FILE: accumulator.dfy ===
/** The overlay accumulator (render.c, `make_sub_img` and `make_sub_img16`):
    the glyph images of one frame are composited, in list order, into four
    frame-sized planes (coverage, then three colour components) that the
    compositors later lay over the video. */
module Accumulator {
  import opened Primitives
  import opened Layout
  import opened Matrix
  import opened Channels

  /** One glyph image: a `w` by `h` bitmap of 8-bit coverage, whose rows are
      `stride` bytes apart, placed at (`dstX`, `dstY`) in the frame, drawn in
      the packed colour `color`. */
  datatype Glyph = Glyph(w: nat, h: nat, stride: nat, dstX: nat, dstY: nat, color: Uint32, bitmap: seq<Byte>) {

    /** Nothing to render. */
    predicate Empty() {
      w == 0 || h == 0
    }

    /** The glyph lies inside a frame `width` samples wide held in planes of
        `n` samples, and its bitmap holds every row it addresses. */
    predicate Placed(width: nat, n: nat) {
      Empty() || (dstX + w <= width && (dstY + h - 1) * width + dstX + w <= n && (h - 1) * stride + w <= |bitmap|)
    }

    /** The accumulator samples the glyph covers: its rows start at
        `dstY * width + dstX` and are `width` samples apart. */
    function Area(width: nat): Grid {
      Grid(dstY * width + dstX, width, 1, 0, h, w)
    }
  }

  /** The four accumulator planes: coverage (`sub_img[0]`) and colour
      components 1 to 3 (`sub_img[1..3]`). */
  datatype Overlay = Overlay(a: seq<int>, c1: seq<int>, c2: seq<int>, c3: seq<int>) {

    /** All planes have the same number of samples. */
    predicate Uniform() {
      |c1| == |a| && |c2| == |a| && |c3| == |a|
    }

    /** The planes hold every sample of a `rows` by `cols` block of a frame
        `width` samples wide. */
    predicate Spans(rows: nat, cols: nat, width: nat) {
      rows == 0 || cols == 0 || (rows - 1) * width + cols <= |a|
    }

    /** The four samples at frame offset `t`. */
    function At(t: nat): Pixel
      requires Uniform() && t < |a|
    {
      Pixel(a[t], c1[t], c2[t], c3[t])
    }
  }

  /** Coverage and colour of one accumulator position. */
  datatype Pixel = Pixel(a: int, c1: int, c2: int, c3: int)

  /** The accumulator in use: 8-bit samples (`make_sub_img`), or 16-bit
      samples holding `bpp`-bit colours (`make_sub_img16`), for an RGB or a
      YUV target. */
  datatype Target = Narrow | Wide(bpp: nat, rgb: bool) {

    predicate Valid() {
      Wide? ==> 8 <= bpp <= 16
    }

    function Depth(): Depth {
      if Narrow? then Depth8 else Depth16
    }
  }

  /** The colour a glyph is drawn in (render.c:111-115, 175-192): 8-bit
      components for the narrow accumulator, widened ones for the wide one. */
  function Ink(ops: Ops, tg: Target, m: ConversionMatrix, color: int): (k: Triple)
    requires tg.Valid()
    ensures tg.Narrow? ==> k == GlyphColour(ops, m, color)
    ensures tg.Wide? ==> k == WideColour(GlyphColour(ops, m, color), tg.bpp, tg.rgb)
    ensures k.Within(tg.Depth().Modulus())
  {
    var k8 := GlyphColour(ops, m, color);
    if tg.Narrow? then k8
    else
      assert Pow2(tg.bpp) <= 65536 by {
        Pow2Add(tg.bpp, 16 - tg.bpp);
        assert Pow2(16) == 65536 by {
          Pow2Add(8, 8);
          assert Pow2(8) == 256;
        }
      }
      WideColour(k8, tg.bpp, tg.rgb)
  }

  /** The coverage a bitmap sample contributes, `div255(src * a1)`
      (render.c:126, 203): a byte in the narrow accumulator, an `int` in the
      wide one. */
  function Coverage(ops: Ops, tg: Target, src: int, a1: int): (a: int)
    ensures ops.Valid() && 0 <= src < 256 && 0 <= a1 <= 255 ==> 0 <= a <= 255
    ensures a1 == 0 && ops.Valid() ==> a == 0
  {
    var a := ops.div255(src * a1);
    if tg.Narrow? then Store(Depth8, a) else a
  }

  /** The new coverage of a position already covered by `da` when a glyph
      adds coverage `a` (render.c:128-129, 133, 138): the combined coverage
      `scale(a, 255, da)`, kept in a `uint32_t`, divided by 255; or `a` when
      nothing was there. */
  function Cover(ops: Ops, d: Depth, a: int, da: int): (r: int)
    ensures IsSample(d, r)
    ensures da == 0 && IsSample(d, a) ==> r == a
    ensures ops.Valid() && 0 <= a <= 255 && 0 <= da <= 255 ==> 0 <= r <= 255
  {
    if da != 0 then Store(d, ops.div255(Wrap32(ops.scale(a, 255, da)))) else Store(d, a)
  }

  /** The new colour component of a position with coverage `da` and
      component `dc` when a glyph adds coverage `a` in component `k`
      (render.c:129-132, 135-137): `dblend` over existing coverage, a plain
      copy of `k` over none. */
  function Mix(ops: Ops, d: Depth, a: int, k: int, da: int, dc: int): (r: int)
    ensures IsSample(d, r)
    ensures da == 0 && IsSample(d, k) ==> r == k
  {
    if da != 0 then Store(d, ops.dblend(a, k, da, dc, Wrap32(ops.scale(a, 255, da)))) else Store(d, k)
  }

  /** One position after a glyph adds coverage `a` in colour `ink`
      (render.c:126-140): unchanged when `a` is zero. */
  function Over(ops: Ops, d: Depth, a: int, ink: Triple, p: Pixel): (r: Pixel)
    ensures a == 0 ==> r == p
    ensures a != 0 && p.a == 0 && IsSample(d, a) && ink.Within(d.Modulus()) ==> r == Pixel(a, ink.c1, ink.c2, ink.c3)
  {
    if a == 0 then p
    else Pixel(Cover(ops, d, a, p.a), Mix(ops, d, a, ink.c1, p.a, p.c1), Mix(ops, d, a, ink.c2, p.a, p.c2),
               Mix(ops, d, a, ink.c3, p.a, p.c3))
  }

  /** Whether frame offset `t` (row `t / width`, column `t % width`) lies
      under the glyph. */
  predicate Covers(g: Glyph, width: nat, t: nat) {
    width > 0 && !g.Empty() && g.dstY <= t / width < g.dstY + g.h && g.dstX <= t % width < g.dstX + g.w
  }

  /** The bitmap sample under frame offset `t`: bitmap rows are `stride`
      apart (render.c:143, 222). */
  function BitmapAt(g: Glyph, width: nat, t: nat): int
    requires Covers(g, width, t)
  {
    Get(g.bitmap, (t / width - g.dstY) * g.stride + (t % width - g.dstX))
  }

  /** Frame offset `t` after the glyph is drawn: positions outside the
      glyph are unchanged. */
  function Painted(ops: Ops, tg: Target, g: Glyph, ink: Triple, a1: int, width: nat, p: Pixel, t: nat): Pixel {
    if Covers(g, width, t) then Over(ops, tg.Depth(), Coverage(ops, tg, BitmapAt(g, width, t), a1), ink, p) else p
  }

  /** The overlay after the glyph is drawn, position by position. */
  function Paint(ops: Ops, tg: Target, o: Overlay, width: nat, g: Glyph, ink: Triple, a1: int): (r: Overlay)
    requires o.Uniform()
    ensures r.Uniform() && |r.a| == |o.a|
  {
    var n := |o.a|;
    Overlay(
      seq(n, t requires 0 <= t < n => Painted(ops, tg, g, ink, a1, width, o.At(t), t).a),
      seq(n, t requires 0 <= t < n => Painted(ops, tg, g, ink, a1, width, o.At(t), t).c1),
      seq(n, t requires 0 <= t < n => Painted(ops, tg, g, ink, a1, width, o.At(t), t).c2),
      seq(n, t requires 0 <= t < n => Painted(ops, tg, g, ink, a1, width, o.At(t), t).c3))
  }

  /** The overlay after the glyphs of `gs` are drawn in order; empty glyphs
      are skipped (render.c:104-109). */
  function Accumulate(ops: Ops, tg: Target, m: ConversionMatrix, width: nat, o: Overlay, gs: seq<Glyph>): (r: Overlay)
    requires tg.Valid() && o.Uniform()
    ensures r.Uniform() && |r.a| == |o.a|
    decreases |gs|
  {
    if |gs| == 0 then o
    else
      var prev := Accumulate(ops, tg, m, width, o, gs[..|gs| - 1]);
      var g := gs[|gs| - 1];
      if g.Empty() then prev
      else Paint(ops, tg, prev, width, g, Ink(ops, tg, m, g.color), Transparency(ops, tg.Depth(), g.color))
  }

  /** A sample the glyph's area addresses is a covered frame offset, at the
      matching row and column. */
  lemma FoundIsCovered(g: Glyph, width: nat, t: nat)
    requires g.dstX + g.w <= width
    ensures var f := g.Area(width).Find(t);
            f.Some? ==> Covers(g, width, t) && t / width == g.dstY + f.slot.row && t % width == g.dstX + f.slot.col
  {
    var f := g.Area(width).Find(t);
    if f.Some? {
      DivModUnique(g.dstY + f.slot.row, g.dstX + f.slot.col, width);
    }
  }

  /** The glyph's area addresses exactly the covered frame offsets. */
  lemma FootprintExact(g: Glyph, width: nat, t: nat)
    requires !g.Empty() && g.dstX + g.w <= width
    ensures g.Area(width).Find(t) ==
            if Covers(g, width, t) then Some(Slot(t / width - g.dstY, t % width - g.dstX, 0)) else None
  {
    FoundIsCovered(g, width, t);
    if Covers(g, width, t) {
      var r, c := t / width - g.dstY, t % width - g.dstX;
      assert t == g.dstY * width + g.dstX + r * width + c;
      FindPixel(g.Area(width), r, c, 0);
    }
  }

  /** The coverage a glyph contributes at pixel (r, c) of its bitmap. */
  function GlyphCoverage(ops: Ops, tg: Target, g: Glyph, a1: int, r: nat, c: nat): int {
    Coverage(ops, tg, Get(g.bitmap, r * g.stride + c), a1)
  }

  /** Whether the glyph adds coverage at pixel (r, c) of its bitmap. */
  function Touched(ops: Ops, tg: Target, g: Glyph, a1: int): (nat, nat) -> bool {
    (r: nat, c: nat) => GlyphCoverage(ops, tg, g, a1, r, c) != 0
  }

  /** The update of a colour plane with ink component `k` at pixel (r, c),
      reading the coverage plane `alpha` at the pixel's own offset. */
  function Mixed(ops: Ops, tg: Target, g: Glyph, a1: int, k: int, alpha: seq<int>, grid: Grid): (nat, nat, int) -> int {
    (r: nat, c: nat, v: int) => Mix(ops, tg.Depth(), GlyphCoverage(ops, tg, g, a1, r, c), k, Get(alpha, grid.Index(r, c)), v)
  }

  /** The update of the coverage plane at pixel (r, c). */
  function Covered(ops: Ops, tg: Target, g: Glyph, a1: int): (nat, nat, int) -> int {
    (r: nat, c: nat, v: int) => Cover(ops, tg.Depth(), GlyphCoverage(ops, tg, g, a1, r, c), v)
  }

  /** The sweep of one colour plane over the glyph's area updates exactly
      the covered frame offsets where the glyph adds coverage, mixing in ink
      component `k` over the coverage already there. */
  lemma PaintedColour(ops: Ops, tg: Target, o: Overlay, width: nat, g: Glyph, a1: int, k: int,
                      plane: seq<int>, out: int, t: nat)
    requires o.Uniform() && !g.Empty() && g.dstX + g.w <= width && t < |o.a| && |plane| == |o.a|
    requires out == Swept(plane, g.Area(width), Touched(ops, tg, g, a1), Mixed(ops, tg, g, a1, k, o.a, g.Area(width)), t)
    ensures !Covers(g, width, t) ==> out == plane[t]
    ensures Covers(g, width, t) ==>
              var a := Coverage(ops, tg, BitmapAt(g, width, t), a1);
              out == if a != 0 then Mix(ops, tg.Depth(), a, k, o.a[t], plane[t]) else plane[t]
  {
    var grid := g.Area(width);
    FootprintExact(g, width, t);
    if Covers(g, width, t) {
      var r: nat, c: nat := t / width - g.dstY, t % width - g.dstX;
      assert grid.Find(t) == Some(Slot(r, c, 0));
      assert grid.Index(r, c) == t;
      assert GlyphCoverage(ops, tg, g, a1, r, c) == Coverage(ops, tg, BitmapAt(g, width, t), a1);
    } else {
      assert grid.Find(t) == None;
    }
  }

  /** The sweep of the coverage plane over the glyph's area updates exactly
      the covered frame offsets where the glyph adds coverage. */
  lemma PaintedCoverage(ops: Ops, tg: Target, o: Overlay, width: nat, g: Glyph, a1: int, out: int, t: nat)
    requires o.Uniform() && !g.Empty() && g.dstX + g.w <= width && t < |o.a|
    requires out == Swept(o.a, g.Area(width), Touched(ops, tg, g, a1), Covered(ops, tg, g, a1), t)
    ensures !Covers(g, width, t) ==> out == o.a[t]
    ensures Covers(g, width, t) ==>
              var a := Coverage(ops, tg, BitmapAt(g, width, t), a1);
              out == if a != 0 then Cover(ops, tg.Depth(), a, o.a[t]) else o.a[t]
  {
    var grid := g.Area(width);
    FootprintExact(g, width, t);
    if Covers(g, width, t) {
      var r: nat, c: nat := t / width - g.dstY, t % width - g.dstX;
      assert grid.Find(t) == Some(Slot(r, c, 0));
      assert GlyphCoverage(ops, tg, g, a1, r, c) == Coverage(ops, tg, BitmapAt(g, width, t), a1);
    } else {
      assert grid.Find(t) == None;
    }
  }

  /** Draws one non-empty glyph (render.c:124-148): the nested loop over the
      glyph's rows and columns, with the bitmap advancing by `stride` and the
      planes by `width` per row, written as one sweep per plane; the
      coverage plane comes last because the colour updates read it. */
  method PaintGlyph(ops: Ops, tg: Target, o: Overlay, width: nat, g: Glyph, ink: Triple, a1: int)
    returns (r: Overlay)
    requires o.Uniform() && !g.Empty() && g.Placed(width, |o.a|)
    ensures r == Paint(ops, tg, o, width, g, ink, a1)
  {
    var grid := g.Area(width);
    var touch := Touched(ops, tg, g, a1);
    var c1 := Sweep(o.c1, grid, touch, Mixed(ops, tg, g, a1, ink.c1, o.a, grid));
    var c2 := Sweep(o.c2, grid, touch, Mixed(ops, tg, g, a1, ink.c2, o.a, grid));
    var c3 := Sweep(o.c3, grid, touch, Mixed(ops, tg, g, a1, ink.c3, o.a, grid));
    var a := Sweep(o.a, grid, touch, Covered(ops, tg, g, a1));
    r := Overlay(a, c1, c2, c3);
    var p := Paint(ops, tg, o, width, g, ink, a1);
    forall t | 0 <= t < |o.a|
      ensures a[t] == p.a[t] && c1[t] == p.c1[t] && c2[t] == p.c2[t] && c3[t] == p.c3[t]
    {
      PaintedColour(ops, tg, o, width, g, a1, ink.c1, o.c1, c1[t], t);
      PaintedColour(ops, tg, o, width, g, a1, ink.c2, o.c2, c2[t], t);
      PaintedColour(ops, tg, o, width, g, a1, ink.c3, o.c3, c3[t], t);
      PaintedCoverage(ops, tg, o, width, g, a1, a[t], t);
    }
  }

  /** Draws the glyphs of `gs` in order, skipping empty ones: the shared loop
      of both accumulators (render.c:104-151, 167-230). */
  method Render(ops: Ops, tg: Target, m: ConversionMatrix, width: nat, o: Overlay, gs: seq<Glyph>)
    returns (r: Overlay)
    requires tg.Valid() && o.Uniform()
    requires forall i | 0 <= i < |gs| :: gs[i].Placed(width, |o.a|)
    ensures r == Accumulate(ops, tg, m, width, o, gs)
  {
    r := o;
    var i := 0;
    while i < |gs|
      invariant 0 <= i <= |gs|
      invariant r == Accumulate(ops, tg, m, width, o, gs[..i])
    {
      var g := gs[i];
      assert gs[..i + 1][..i] == gs[..i];
      if !g.Empty() {
        r := PaintGlyph(ops, tg, r, width, g, Ink(ops, tg, m, g.color), Transparency(ops, tg.Depth(), g.color));
      }
      i := i + 1;
    }
    assert gs[..|gs|] == gs;
  }

  /** `make_sub_img` (render.c:97-152): the 8-bit accumulator.  Its
      `bits_per_pixel` and `rgb` parameters are unused. */
  method MakeSubImg(ops: Ops, m: ConversionMatrix, width: nat, o: Overlay, gs: seq<Glyph>)
    returns (r: Overlay)
    requires o.Uniform()
    requires forall i | 0 <= i < |gs| :: gs[i].Placed(width, |o.a|)
    ensures r == Accumulate(ops, Narrow, m, width, o, gs)
  {
    r := Render(ops, Narrow, m, width, o, gs);
  }

  /** `make_sub_img16` (render.c:154-231): the wide accumulator for a
      `bpp`-bit target. */
  method MakeSubImg16(ops: Ops, m: ConversionMatrix, width: nat, bpp: nat, rgb: bool, o: Overlay, gs: seq<Glyph>)
    returns (r: Overlay)
    requires 8 <= bpp <= 16 && o.Uniform()
    requires forall i | 0 <= i < |gs| :: gs[i].Placed(width, |o.a|)
    ensures r == Accumulate(ops, Wide(bpp, rgb), m, width, o, gs)
  {
    r := Render(ops, Wide(bpp, rgb), m, width, o, gs);
  }

  /** Drawing `xs` and then `ys` is drawing `xs + ys`: the accumulator can
      be fed the glyph list in pieces. */
  lemma {:induction false} AccumulateAppend(ops: Ops, tg: Target, m: ConversionMatrix, width: nat, o: Overlay,
                                            xs: seq<Glyph>, ys: seq<Glyph>)
    requires tg.Valid() && o.Uniform()
    ensures Accumulate(ops, tg, m, width, o, xs + ys)
            == Accumulate(ops, tg, m, width, Accumulate(ops, tg, m, width, o, xs), ys)
    decreases |ys|
  {
    if |ys| == 0 {
      assert xs + ys == xs;
    } else {
      var ys' := ys[..|ys| - 1];
      assert (xs + ys)[..|xs + ys| - 1] == xs + ys';
      assert (xs + ys)[|xs + ys| - 1] == ys[|ys| - 1];
      AccumulateAppend(ops, tg, m, width, o, xs, ys');
    }
  }

  /** An empty glyph anywhere in the list changes nothing
      (render.c:105-109). */
  lemma EmptyGlyphIgnored(ops: Ops, tg: Target, m: ConversionMatrix, width: nat, o: Overlay,
                          xs: seq<Glyph>, g: Glyph, ys: seq<Glyph>)
    requires tg.Valid() && o.Uniform() && g.Empty()
    ensures Accumulate(ops, tg, m, width, o, xs + [g] + ys) == Accumulate(ops, tg, m, width, o, xs + ys)
  {
    AccumulateAppend(ops, tg, m, width, o, xs + [g], ys);
    AccumulateAppend(ops, tg, m, width, o, xs, ys);
    assert (xs + [g])[..|xs + [g]| - 1] == xs;
  }

  /** A position that no glyph of the list covers keeps its four samples. */
  lemma {:induction false} Untouched(ops: Ops, tg: Target, m: ConversionMatrix, width: nat, o: Overlay,
                                     gs: seq<Glyph>, t: nat)
    requires tg.Valid() && o.Uniform() && t < |o.a|
    requires forall i | 0 <= i < |gs| :: !Covers(gs[i], width, t)
    ensures Accumulate(ops, tg, m, width, o, gs).At(t) == o.At(t)
    decreases |gs|
  {
    if |gs| > 0 {
      Untouched(ops, tg, m, width, o, gs[..|gs| - 1], t);
    }
  }

  /** A glyph drawn with a fully transparent colour (alpha 255) gives every
      bitmap sample zero coverage and so changes nothing. */
  lemma TransparentGlyphIgnored(ops: Ops, tg: Target, m: ConversionMatrix, width: nat, o: Overlay,
                                xs: seq<Glyph>, g: Glyph)
    requires ops.Valid() && tg.Valid() && o.Uniform() && ops.alpha(g.color) == 255
    ensures Accumulate(ops, tg, m, width, o, xs + [g]) == Accumulate(ops, tg, m, width, o, xs)
  {
    assert (xs + [g])[..|xs + [g]| - 1] == xs;
    var prev := Accumulate(ops, tg, m, width, o, xs);
    if !g.Empty() {
      var a1 := Transparency(ops, tg.Depth(), g.color);
      var ink := Ink(ops, tg, m, g.color);
      var p := Paint(ops, tg, prev, width, g, ink, a1);
      forall t | 0 <= t < |prev.a|
        ensures p.At(t) == prev.At(t)
      {
        if Covers(g, width, t) {
          assert Coverage(ops, tg, BitmapAt(g, width, t), a1) == 0;
        }
      }
      assert p.a == prev.a && p.c1 == prev.c1 && p.c2 == prev.c2 && p.c3 == prev.c3;
    }
  }

  /** The first glyph to reach a position with no coverage yet copies its
      coverage and colour there verbatim (render.c:134-139). */
  lemma FirstWriterCopies(ops: Ops, tg: Target, m: ConversionMatrix, width: nat, o: Overlay,
                          xs: seq<Glyph>, g: Glyph, t: nat)
    requires ops.Valid() && tg.Valid() && o.Uniform() && t < |o.a|
    requires Covers(g, width, t) && Accumulate(ops, tg, m, width, o, xs).a[t] == 0
    ensures var a := Coverage(ops, tg, BitmapAt(g, width, t), Transparency(ops, tg.Depth(), g.color));
            var ink := Ink(ops, tg, m, g.color);
            a != 0 ==> Accumulate(ops, tg, m, width, o, xs + [g]).At(t) == Pixel(a, ink.c1, ink.c2, ink.c3)
  {
    assert (xs + [g])[..|xs + [g]| - 1] == xs;
    assert 0 <= BitmapAt(g, width, t) < 256;
    assert tg.Depth().Modulus() >= 256;
  }

  /** Every coverage sample stays a byte value, also in the 16-bit planes of
      the wide accumulator (render.c:203, 211, 217), so the compositors can
      use it as an 8-bit alpha. */
  lemma {:induction false} CoverageStaysByte(ops: Ops, tg: Target, m: ConversionMatrix, width: nat, o: Overlay,
                                             gs: seq<Glyph>)
    requires ops.Valid() && tg.Valid() && o.Uniform()
    requires forall t | 0 <= t < |o.a| :: 0 <= o.a[t] <= 255
    ensures forall t | 0 <= t < |o.a| :: 0 <= Accumulate(ops, tg, m, width, o, gs).a[t] <= 255
    decreases |gs|
  {
    if |gs| > 0 {
      CoverageStaysByte(ops, tg, m, width, o, gs[..|gs| - 1]);
      var prev := Accumulate(ops, tg, m, width, o, gs[..|gs| - 1]);
      assert forall t | 0 <= t < |prev.a| :: 0 <= prev.a[t] <= 255;
      var g := gs[|gs| - 1];
      if !g.Empty() {
        var a1 := Transparency(ops, tg.Depth(), g.color);
        var p := Paint(ops, tg, prev, width, g, Ink(ops, tg, m, g.color), a1);
        forall t | 0 <= t < |p.a|
          ensures 0 <= p.a[t] <= 255
        {
          PaintedCoverageByte(ops, tg, g, Ink(ops, tg, m, g.color), a1, width, prev.At(t), t);
        }
      }
    }
  }

  /** One position's coverage stays a byte when a glyph is drawn over it. */
  lemma PaintedCoverageByte(ops: Ops, tg: Target, g: Glyph, ink: Triple, a1: int, width: nat, p: Pixel, t: nat)
    requires ops.Valid() && 0 <= a1 <= 255 && 0 <= p.a <= 255
    ensures 0 <= Painted(ops, tg, g, ink, a1, width, p, t).a <= 255
  {
    if Covers(g, width, t) {
      assert 0 <= BitmapAt(g, width, t) < 256;
    }
  }
}

=== FILE: channels.dfy ===
/** Glyph colours: the packed colour of a glyph is turned into three 8-bit
    components, either R, G, B (`col2rgb`) or Y, U, V through a conversion
    matrix (`col2yuv`), and for the wide accumulator stretched or shifted to
    the target bit depth. */
module Channels {
  import opened Primitives
  import opened Matrix
  import opened Layout

  /** Three colour components, in plane order 1, 2, 3 of the accumulator:
      R, G, B or Y, U, V. */
  datatype Triple = Triple(c1: int, c2: int, c3: int) {
    predicate Within(limit: int) {
      0 <= c1 < limit && 0 <= c2 < limit && 0 <= c3 < limit
    }
  }

  /** Whether the colour's R, G and B channels are bytes. */
  predicate ByteChannels(ops: Ops, c: int) {
    0 <= ops.red(c) < 256 && 0 <= ops.green(c) < 256 && 0 <= ops.blue(c) < 256
  }

  /** `col2rgb` (render.c:83-88): the channels, each stored into a byte. */
  function Col2Rgb(ops: Ops, c: int): (t: Triple)
    ensures t.Within(256)
    ensures ByteChannels(ops, c) ==> t == Triple(ops.red(c), ops.green(c), ops.blue(c))
    ensures (ops.red(c) - t.c1) % 256 == 0 && (ops.green(c) - t.c2) % 256 == 0 && (ops.blue(c) - t.c3) % 256 == 0
  {
    Triple(Store(Depth8, ops.red(c)), Store(Depth8, ops.green(c)), Store(Depth8, ops.blue(c)))
  }

  /** One row of the matrix applied to the channels: the fixed-point value
      the renderer divides by 2^16. */
  function Dot(ops: Ops, kR: int, kG: int, kB: int, c: int): int {
    kR * ops.red(c) + kG * ops.green(c) + kB * ops.blue(c)
  }

  /** `col2yuv` (render.c:90-95): each row of the matrix, divided by 2^16,
      plus the luma offset or the chroma midpoint 128, stored into a byte. */
  function Col2Yuv(ops: Ops, c: int, m: ConversionMatrix): (t: Triple)
    ensures t.Within(256)
    ensures (ops.div65536(Dot(ops, m.yR, m.yG, m.yB, c)) + m.offsetY - t.c1) % 256 == 0
    ensures (ops.div65536(Dot(ops, m.uR, m.uG, m.uB, c)) + 128 - t.c2) % 256 == 0
    ensures (ops.div65536(Dot(ops, m.vR, m.vG, m.vB, c)) + 128 - t.c3) % 256 == 0
  {
    Triple(
      Store(Depth8, ops.div65536(Dot(ops, m.yR, m.yG, m.yB, c)) + m.offsetY),
      Store(Depth8, ops.div65536(Dot(ops, m.uR, m.uG, m.uB, c)) + 128),
      Store(Depth8, ops.div65536(Dot(ops, m.vR, m.vG, m.vB, c)) + 128))
  }

  /** A grey colour (equal byte channels) is sent by any matrix that
      `FillMatrix` builds to chroma rows whose fixed-point value lies between
      -255 and 765, far below half a code step of 2^16: grey stays neutral.
      The upper end is three times the lower because the renderer's rounding
      lets a chroma row add up to 3 (`Matrix.Bt601ChromaRowAsWritten`). */
  lemma GreyIsNeutral(ops: Ops, c: int, mt: MatrixType, prior: ConversionMatrix)
    requires !(mt.MatrixNone? || mt.Unrecognised?)
    requires ByteChannels(ops, c) && ops.red(c) == ops.green(c) == ops.blue(c)
    ensures var m := FillMatrix(prior, mt);
            -255 <= Dot(ops, m.uR, m.uG, m.uB, c) <= 765 && -255 <= Dot(ops, m.vR, m.vG, m.vB, c) <= 765
  {
    var m := FillMatrix(prior, mt);
    RowOfGrey(m.uR, m.uG, m.uB, ops.red(c));
    RowOfGrey(m.vR, m.vG, m.vB, ops.red(c));
  }

  /** A matrix row whose coefficients add up to a value from -1 to 3,
      applied to three equal bytes, stays between -255 and 765. */
  lemma RowOfGrey(k1: int, k2: int, k3: int, g: int)
    requires -1 <= k1 + k2 + k3 <= 3 && 0 <= g < 256
    ensures -255 <= k1 * g + k2 * g + k3 * g <= 765
  {
    var k := k1 + k2 + k3;
    assert k1 * g + k2 * g + k3 * g == k * g;
    assert -g <= k * g <= 3 * g;
  }

  /** Whether the division by 2^16 rounds `x` to within half a step: the
      quotient, scaled back, is within 2^15 of `x`. */
  predicate RoundsOff(ops: Ops, x: int) {
    -32768 <= 65536 * ops.div65536(x) - x <= 32768
  }

  /** White (all channels 255) gets the top luma value before the division:
      within 383 of `sy * 2^16`, where `sy` is the luma excursion. */
  lemma WhiteIsTopLuma(ops: Ops, c: int, mt: MatrixType, prior: ConversionMatrix)
    requires !(mt.MatrixNone? || mt.Unrecognised?)
    requires ops.red(c) == 255 && ops.green(c) == 255 && ops.blue(c) == 255
    ensures var m := FillMatrix(prior, mt);
            var sy := RangeConstants(FullScale(mt), 8).sy;
            -383 < Dot(ops, m.yR, m.yG, m.yB, c) - sy * 65536 < 383
  {
    var m := FillMatrix(prior, mt);
    assert Dot(ops, m.yR, m.yG, m.yB, c) == 255 * (m.yR + m.yG + m.yB);
    WhiteLuma(mt, prior);
  }

  /** White becomes the top luma code, 255 in full range and 235 in limited
      range, whenever the division rounds to within half a step on the
      values white's luma row can take. */
  lemma WhiteBecomesTopCode(ops: Ops, c: int, mt: MatrixType, prior: ConversionMatrix)
    requires !(mt.MatrixNone? || mt.Unrecognised?)
    requires ops.red(c) == 255 && ops.green(c) == 255 && ops.blue(c) == 255
    requires forall x | 219 * 65536 - 383 < x < 255 * 65536 + 383 :: RoundsOff(ops, x)
    ensures Col2Yuv(ops, c, FillMatrix(prior, mt)).c1 == if FullScale(mt) then 255 else 235
  {
    var m := FillMatrix(prior, mt);
    var x := Dot(ops, m.yR, m.yG, m.yB, c);
    WhiteIsTopLuma(ops, c, mt, prior);
    EightBitRanges();
    var sy := RangeConstants(FullScale(mt), 8).sy;
    assert RoundsOff(ops, x);
    var q := ops.div65536(x);
    assert 65536 * (sy - 1) < 65536 * q < 65536 * (sy + 1);
    assert q == sy;
  }

  /** A grey colour gets chroma 128 in both rows whenever the division
      rounds to within half a step on the values its chroma rows can take. */
  lemma GreyBecomesNeutral(ops: Ops, c: int, mt: MatrixType, prior: ConversionMatrix)
    requires !(mt.MatrixNone? || mt.Unrecognised?)
    requires ByteChannels(ops, c) && ops.red(c) == ops.green(c) == ops.blue(c)
    requires forall x | -255 <= x <= 765 :: RoundsOff(ops, x)
    ensures var t := Col2Yuv(ops, c, FillMatrix(prior, mt)); t.c2 == 128 && t.c3 == 128
  {
    var m := FillMatrix(prior, mt);
    GreyIsNeutral(ops, c, mt, prior);
    assert RoundsOff(ops, Dot(ops, m.uR, m.uG, m.uB, c)) && RoundsOff(ops, Dot(ops, m.vR, m.vG, m.vB, c));
    var qu, qv := ops.div65536(Dot(ops, m.uR, m.uG, m.uB, c)), ops.div65536(Dot(ops, m.vR, m.vG, m.vB, c));
    assert -65536 < 65536 * qu < 65536 && -65536 < 65536 * qv < 65536;
    assert qu == 0 && qv == 0;
  }

  /** Black (all channels 0) becomes the bottom luma code, 0 in full range
      and 16 in limited range, with neutral chroma 128, for any matrix
      `FillMatrix` builds; the only fact used about the division is that it
      sends 0 to 0. */
  lemma BlackIsBottomLuma(ops: Ops, c: int, mt: MatrixType, prior: ConversionMatrix)
    requires !(mt.MatrixNone? || mt.Unrecognised?)
    requires ops.red(c) == 0 && ops.green(c) == 0 && ops.blue(c) == 0 && ops.div65536(0) == 0
    ensures Col2Yuv(ops, c, FillMatrix(prior, mt)) == Triple(if FullScale(mt) then 0 else 16, 128, 128)
  {
    var m := FillMatrix(prior, mt);
    assert Dot(ops, m.yR, m.yG, m.yB, c) == 0;
    assert Dot(ops, m.uR, m.uG, m.uB, c) == 0;
    assert Dot(ops, m.vR, m.vG, m.vB, c) == 0;
  }

  /** The 8-bit glyph colour (render.c:111-115, 174-178): converted to YUV
      when the matrix is valid, taken as RGB otherwise. */
  function GlyphColour(ops: Ops, m: ConversionMatrix, c: int): (t: Triple)
    ensures t.Within(256)
    ensures m.valid ==> t == Col2Yuv(ops, c, m)
    ensures !m.valid ==> t == Col2Rgb(ops, c)
  {
    if m.valid then Col2Yuv(ops, c, m) else Col2Rgb(ops, c)
  }

  /** The coverage factor of a glyph, `255 - alpha` (render.c:116, 179):
      stored into a byte by the 8-bit accumulator, kept as `int` by the wide
      one.  For a 32-bit colour both give `255 - alpha` in 0 .. 255. */
  function Transparency(ops: Ops, d: Depth, c: int): (a1: int)
    ensures ops.Valid() && 0 <= c < ColorLimit ==> a1 == 255 - ops.alpha(c) && 0 <= a1 <= 255
    ensures d.Depth8? ==> 0 <= a1 < 256
  {
    if d.Depth8? then Store(Depth8, 255 - ops.alpha(c)) else 255 - ops.alpha(c)
  }

  /** Full-scale stretch of an 8-bit component to `bpp` bits
      (render.c:180-186): `c * (2^bpp - 1) / 255`, rounded to nearest. */
  function Stretch(c: int, bpp: nat): (r: int)
    requires 0 <= c < 256
    ensures 0 <= r < Pow2(bpp)
    ensures (255 * r - c * (Pow2(bpp) - 1)) as real <= 127.5
    ensures (c * (Pow2(bpp) - 1) - 255 * r) as real < 127.5
  {
    var top := Pow2(bpp) - 1;
    var r := RoundNearest(c as real * top as real / 255.0);
    StretchBounds(c, top, r);
    r
  }

  /** The rounded stretch stays between 0 and `top` and within half a step
      of the exact value. */
  lemma StretchBounds(c: int, top: int, r: int)
    requires 0 <= c < 256 && top >= 0
    requires r == RoundNearest(c as real * top as real / 255.0)
    ensures 0 <= r <= top
    ensures (255 * r - c * top) as real <= 127.5
    ensures (c * top - 255 * r) as real < 127.5
  {
    var p := c * top;
    assert 0 <= p <= 255 * top by {
      MulStep(c, 255, top);
    }
    assert c as real * top as real == p as real;
    var x := p as real / 255.0;
    assert 0.0 <= x <= top as real;
    assert x - 0.5 < r as real <= x + 0.5;
    assert (255 * r - c * top) as real == 255.0 * (r as real - x);
  }

  /** Black stays 0 and full intensity becomes the top code of the depth. */
  lemma StretchEnds(bpp: nat)
    ensures Stretch(0, bpp) == 0
    ensures Stretch(255, bpp) == Pow2(bpp) - 1
  {
    var top := Pow2(bpp) - 1;
    assert 255.0 * top as real / 255.0 == top as real;
  }

  /** Left shift of an 8-bit component to `bpp` bits (render.c:187-192). */
  function Widen(c: int, bpp: nat): (r: int)
    requires 0 <= c < 256 && bpp >= 8
    ensures 0 <= r < Pow2(bpp)
    ensures r % Pow2(bpp - 8) == 0 && r / Pow2(bpp - 8) == c
  {
    var unit := Pow2(bpp - 8);
    Pow2Add(bpp - 8, 8);
    assert Pow2(8) == 256;
    WidenExact(c, unit);
    c * unit
  }

  /** Multiplying by a positive unit is undone by dividing by it. */
  lemma WidenExact(c: int, unit: nat)
    requires 0 <= c < 256 && unit > 0
    ensures (c * unit) % unit == 0 && (c * unit) / unit == c
    ensures 0 <= c * unit < 256 * unit
  {
    DivModUnique(c, 0, unit);
    assert c * unit <= 255 * unit;
  }

  /** The colour components of the wide accumulator (render.c:180-192):
      stretched when the target is RGB, shifted when it is YUV. */
  function WideColour(t: Triple, bpp: nat, rgb: bool): (w: Triple)
    requires t.Within(256) && 8 <= bpp <= 16
    ensures w.Within(Pow2(bpp))
    ensures !rgb ==> w.c1 / Pow2(bpp - 8) == t.c1 && w.c2 / Pow2(bpp - 8) == t.c2 && w.c3 / Pow2(bpp - 8) == t.c3
  {
    if rgb then Triple(Stretch(t.c1, bpp), Stretch(t.c2, bpp), Stretch(t.c3, bpp))
    else Triple(Widen(t.c1, bpp), Widen(t.c2, bpp), Widen(t.c3, bpp))
  }
}

=== FILE: layout.dfy ===
/** Addressing of samples in the flat, pitched buffers the renderer reads and writes.

    Every routine of the renderer walks a rectangle of pixels row by row:
    row `r` starts `pitch` samples after row `r - 1`, pixel `c` of a row
    starts `step` samples after pixel `c - 1`, and the routine touches one
    sample (`lane`) of each pixel.  `Locate` recovers the row, pixel and
    lane of a flat index, and `Sweep` is the nested loop itself. */
module Layout {

  /** Position of a sample: its row, the pixel inside the row, and the
      sample inside the pixel. */
  datatype Slot = Slot(row: nat, col: nat, lane: nat)

  /** Splits an offset into row, pixel and lane.  It is the inverse of
      `row * pitch + col * step + lane` (see `LocateIndex`). */
  function Locate(x: nat, pitch: nat, step: nat): (s: Slot)
    requires pitch > 0 && step > 0
    ensures x == s.row * pitch + s.col * step + s.lane
    ensures s.lane < step && s.col * step + s.lane < pitch
  {
    Slot(x / pitch, (x % pitch) / step, (x % pitch) % step)
  }

  /** Multiplication by a natural number is monotone, in the strict form
      the division lemmas use. */
  lemma MulStep(a: int, b: int, p: nat)
    ensures a < b ==> a * p + p <= b * p
  {
    if a < b {
      var d := b - a;
      assert b * p == a * p + d * p;
      assert d * p >= p;
    }
  }

  /** Euclidean division has a unique answer. */
  lemma DivModUnique(q: int, r: nat, p: nat)
    requires r < p
    ensures (q * p + r) / p == q
    ensures (q * p + r) % p == r
  {
    var x := q * p + r;
    var q', r' := x / p, x % p;
    assert x == q' * p + r';
    MulStep(q', q, p);
    MulStep(q, q', p);
  }

  /** Offsets at or past `k` whole rows lie in row `k` or later. */
  lemma RowAtLeast(x: nat, p: nat, k: nat)
    requires p > 0 && x >= k * p
    ensures x / p >= k
  {
    var q, r := x / p, x % p;
    assert x == q * p + r;
    MulStep(q, k, p);
  }

  /** `Locate` undoes the address computation of the routines. */
  lemma {:induction false} LocateIndex(s: Slot, pitch: nat, step: nat)
    requires step > 0
    requires s.lane < step && s.col * step + s.lane < pitch
    ensures Locate(s.row * pitch + s.col * step + s.lane, pitch, step) == s
  {
    DivModUnique(s.row, s.col * step + s.lane, pitch);
    DivModUnique(s.col, s.lane, step);
  }

  /** Offsets within the row after the last pixel a sweep visits: they
      belong to row `r` and to pixel `cols` or later. */
  lemma RowTail(r: nat, x: nat, pitch: nat, step: nat, cols: nat)
    requires step > 0 && cols * step <= x < pitch
    ensures Locate(r * pitch + x, pitch, step).row == r
    ensures Locate(r * pitch + x, pitch, step).col >= cols
  {
    DivModUnique(r, x, pitch);
    RowAtLeast(x, step, cols);
  }

  /** Offsets inside pixel `c` of row `r`, at lane `e`. */
  lemma PixelLane(r: nat, c: nat, e: nat, pitch: nat, step: nat)
    requires e < step && c * step + e < pitch
    ensures Locate(r * pitch + c * step + e, pitch, step) == Slot(r, c, e)
  {
    LocateIndex(Slot(r, c, e), pitch, step);
  }

  /** A rectangle of `rows` by `cols` pixels inside a flat buffer, starting
      at `base`, rows `pitch` samples apart, pixels `step` samples apart; the
      sample addressed in each pixel is `lane`. */
  datatype Grid = Grid(base: nat, pitch: nat, step: nat, lane: nat, rows: nat, cols: nat) {

    /** Pixels of one row do not run into the next row. */
    predicate WellFormed() {
      lane < step && (rows == 0 || cols == 0 || cols * step <= pitch)
    }

    /** Every addressed sample lies inside a buffer of `n` samples. */
    predicate Fits(n: nat) {
      rows == 0 || cols == 0 || base + (rows - 1) * pitch + (cols - 1) * step + lane < n
    }

    /** Flat index of the addressed sample of pixel (r, c). */
    function Index(r: nat, c: nat): nat {
      base + r * pitch + c * step + lane
    }

    /** Whether flat index `t` is the addressed sample of one of the pixels,
        and if so which. */
    function Find(t: nat): (s: Option)
      ensures s.Some? ==> s.slot.row < rows && s.slot.col < cols && t == Index(s.slot.row, s.slot.col)
    {
      if step > 0 && pitch > 0 && t >= base then
        var s := Locate(t - base, pitch, step);
        if s.row < rows && s.col < cols && s.lane == lane then Some(s) else None
      else None
    }
  }

  /** The pixel a flat index addresses, if any. */
  datatype Option = None | Some(slot: Slot)

  /** Sample `t` after a sweep: rewritten by `value` when it is the
      addressed sample of a pixel that `touch` selects, kept otherwise. */
  function Swept(dst: seq<int>, g: Grid, touch: (nat, nat) -> bool, value: (nat, nat, int) -> int, t: nat): int
    requires t < |dst|
  {
    match g.Find(t)
    case Some(s) => if touch(s.row, s.col) then value(s.row, s.col, dst[t]) else dst[t]
    case None => dst[t]
  }

  /** The sample of pixel (r, c) is found again, with its own coordinates,
      and every other sample of that pixel is not addressed. */
  lemma FindPixel(g: Grid, r: nat, c: nat, e: nat)
    requires g.WellFormed() && r < g.rows && c < g.cols && e < g.step
    ensures g.Find(g.base + r * g.pitch + c * g.step + e) == if e == g.lane then Some(Slot(r, c, e)) else None
  {
    MulStep(c, g.cols, g.step);
    PixelLane(r, c, e, g.pitch, g.step);
  }

  /** Samples between the last pixel of row `r` and the next row are not
      addressed. */
  lemma FindRowTail(g: Grid, r: nat, t: nat)
    requires g.WellFormed() && g.cols > 0
    requires g.base + r * g.pitch + g.cols * g.step <= t < g.base + r * g.pitch + g.pitch
    ensures g.Find(t) == None
  {
    RowTail(r, t - g.base - r * g.pitch, g.pitch, g.step, g.cols);
  }

  /** Samples past the last row are not addressed. */
  lemma FindPastRows(g: Grid, t: nat)
    requires g.WellFormed() && g.rows > 0 && g.cols > 0
    requires g.base + g.rows * g.pitch <= t
    ensures g.Find(t) == None
  {
    RowAtLeast(t - g.base, g.pitch, g.rows);
  }

  /** Flat index where the sweep of row `r` begins. */
  function RowStart(g: Grid, r: nat): nat {
    g.base + r * g.pitch
  }

  /** The state of the buffer once every sample before `limit` has been swept. */
  ghost predicate SweptBelow(out: seq<int>, dst: seq<int>, g: Grid, touch: (nat, nat) -> bool,
                             value: (nat, nat, int) -> int, limit: int)
  {
    && |out| == |dst|
    && forall t | 0 <= t < |dst| :: out[t] == if t < limit then Swept(dst, g, touch, value, t) else dst[t]
  }

  /** Sweeping pixel (r, c) extends the swept prefix by that pixel's samples. */
  lemma SweepPixel(dst: seq<int>, g: Grid, touch: (nat, nat) -> bool, value: (nat, nat, int) -> int,
                   cur: seq<int>, r: nat, c: nat)
    requires g.WellFormed() && g.Fits(|dst|) && r < g.rows && c < g.cols
    requires SweptBelow(cur, dst, g, touch, value, RowStart(g, r) + c * g.step)
    ensures g.Index(r, c) < |dst|
    ensures SweptBelow(if touch(r, c) then cur[g.Index(r, c) := value(r, c, cur[g.Index(r, c)])] else cur,
                       dst, g, touch, value, RowStart(g, r) + (c + 1) * g.step)
  {
    var lo := RowStart(g, r) + c * g.step;
    var k := g.Index(r, c);
    MulStep(r, g.rows - 1, g.pitch);
    MulStep(c, g.cols - 1, g.step);
    assert k < |dst|;
    forall t | lo <= t < lo + g.step
      ensures g.Find(t) == if t == k then Some(Slot(r, c, g.lane)) else None
    {
      FindPixel(g, r, c, t - lo);
    }
    assert RowStart(g, r) + (c + 1) * g.step == lo + g.step;
  }

  /** The inner loop: sweeps the pixels of row `r`. */
  method SweepRow(dst: seq<int>, g: Grid, touch: (nat, nat) -> bool, value: (nat, nat, int) -> int,
                  cur: seq<int>, r: nat)
    returns (out: seq<int>)
    requires g.WellFormed() && g.Fits(|dst|) && r < g.rows && g.cols > 0
    requires SweptBelow(cur, dst, g, touch, value, RowStart(g, r))
    ensures SweptBelow(out, dst, g, touch, value, RowStart(g, r + 1))
  {
    out := cur;
    var c := 0;
    while c < g.cols
      invariant 0 <= c <= g.cols
      invariant SweptBelow(out, dst, g, touch, value, RowStart(g, r) + c * g.step)
    {
      SweepPixel(dst, g, touch, value, out, r, c);
      var k := g.Index(r, c);
      if touch(r, c) {
        out := out[k := value(r, c, out[k])];
      }
      c := c + 1;
    }
    forall t | RowStart(g, r) + g.cols * g.step <= t < RowStart(g, r) + g.pitch
      ensures g.Find(t) == None
    {
      FindRowTail(g, r, t);
    }
    assert RowStart(g, r + 1) == RowStart(g, r) + g.pitch;
  }

  /** The nested row/column loop of every routine: visits the pixels of `g`
      in row-major order and rewrites the addressed sample of each pixel that
      `touch` selects.  The new value depends only on the pixel's coordinates
      and the sample's own previous value. */
  method Sweep(dst: seq<int>, g: Grid, touch: (nat, nat) -> bool, value: (nat, nat, int) -> int)
    returns (out: seq<int>)
    requires g.WellFormed() && g.Fits(|dst|)
    ensures |out| == |dst|
    ensures forall t | 0 <= t < |dst| :: out[t] == Swept(dst, g, touch, value, t)
  {
    out := dst;
    if g.rows == 0 || g.cols == 0 {
      return;
    }
    var r := 0;
    while r < g.rows
      invariant 0 <= r <= g.rows
      invariant SweptBelow(out, dst, g, touch, value, RowStart(g, r))
    {
      out := SweepRow(dst, g, touch, value, out, r);
      r := r + 1;
    }
    forall t | RowStart(g, g.rows) <= t < |dst| ensures g.Find(t) == None {
      FindPastRows(g, t);
    }
  }

  /** Sample `t` after lanes `0 .. lanes - 1` of every pixel of a `rows` by
      `cols` block at the start of a buffer have been rewritten: the pixel
      and lane are recovered from the offset alone. */
  function LaneSwept(dst: seq<int>, pitch: nat, step: nat, rows: nat, cols: nat, lanes: nat,
                     touch: (nat, nat, nat) -> bool, value: (nat, nat, nat, int) -> int, t: nat): int
    requires t < |dst|
  {
    if pitch == 0 || step == 0 then dst[t]
    else
      var s := Locate(t, pitch, step);
      if s.row < rows && s.col < cols && s.lane < lanes && touch(s.row, s.col, s.lane)
      then value(s.row, s.col, s.lane, dst[t])
      else dst[t]
  }

  /** Whether a `rows` by `cols` block of `step`-sample pixels, whose first
      `lanes` samples are addressed, fits rows of `pitch` samples and a
      buffer of `n` samples. */
  predicate BlockFits(pitch: nat, step: nat, rows: nat, cols: nat, lanes: nat, n: nat) {
    && lanes <= step
    && (rows == 0 || cols == 0 || lanes == 0 ||
        (cols * step <= pitch && (rows - 1) * pitch + (cols - 1) * step + lanes <= n))
  }

  /** Sweeping one more lane extends the swept lanes by one. */
  lemma SweepLane(dst: seq<int>, cur: seq<int>, next: seq<int>, pitch: nat, step: nat, rows: nat, cols: nat, e: nat,
                  touch: (nat, nat, nat) -> bool, value: (nat, nat, nat, int) -> int, t: nat,
                  g: Grid, touch': (nat, nat) -> bool, value': (nat, nat, int) -> int)
    requires g == Grid(0, pitch, step, e, rows, cols) && e < step
    requires forall r, c :: touch'(r, c) == touch(r, c, e)
    requires forall r, c, v :: value'(r, c, v) == value(r, c, e, v)
    requires |cur| == |dst| && t < |dst|
    requires cur[t] == LaneSwept(dst, pitch, step, rows, cols, e, touch, value, t)
    requires |next| == |dst| && next[t] == Swept(cur, g, touch', value', t)
    ensures next[t] == LaneSwept(dst, pitch, step, rows, cols, e + 1, touch, value, t)
  {
  }

  /** Rewrites lanes `0 .. lanes - 1` of every pixel of the block, one lane
      after the other.  The new value of a sample depends only on its pixel,
      its lane and its own previous value. */
  method SweepLanes(dst: seq<int>, pitch: nat, step: nat, rows: nat, cols: nat, lanes: nat,
                    touch: (nat, nat, nat) -> bool, value: (nat, nat, nat, int) -> int)
    returns (out: seq<int>)
    requires BlockFits(pitch, step, rows, cols, lanes, |dst|)
    ensures |out| == |dst|
    ensures forall t | 0 <= t < |dst| :: out[t] == LaneSwept(dst, pitch, step, rows, cols, lanes, touch, value, t)
  {
    out := dst;
    var e := 0;
    while e < lanes
      invariant e <= lanes
      invariant |out| == |dst|
      invariant forall t | 0 <= t < |dst| :: out[t] == LaneSwept(dst, pitch, step, rows, cols, e, touch, value, t)
    {
      var g := Grid(0, pitch, step, e, rows, cols);
      var touch' := (r: nat, c: nat) => touch(r, c, e);
      var value' := (r: nat, c: nat, v: int) => value(r, c, e, v);
      var next := Sweep(out, g, touch', value');
      forall t | 0 <= t < |dst|
        ensures next[t] == LaneSwept(dst, pitch, step, rows, cols, e + 1, touch, value, t)
      {
        SweepLane(dst, out, next, pitch, step, rows, cols, e, touch, value, t, g, touch', value');
      }
      out := next;
      e := e + 1;
    }
  }
}

=== FILE: matrix.dfy ===
/** Selection and construction of the fixed-point RGB -> YUV matrix
    (render.c, `FillMatrix` and `BuildMatrix`).

    The coefficients are computed in `double` by the renderer; here they are
    computed in exact real arithmetic (`ExactCoefficients`) and rounded the
    way the renderer rounds them, `(int)(x + 0.5)` (`RoundAsWritten`).  That
    conversion truncates toward zero and so rounds negative coefficients one
    unit too high (`AsWrittenMisroundsNegatives`,
    `Bt601ChromaGreenMisrounded`); `BuildMatrixNearest` is the matrix rounded
    to nearest, which the code evidently intends. */
module Matrix {
  import opened Primitives

  /** The colorimetry setting; any value outside the listed cases is
      `Unrecognised`. */
  datatype MatrixType =
    | MatrixNone
    | BT601 | PC601
    | BT709 | PC709
    | BT2020 | PC2020
    | TVFCC | PCFCC
    | TV240M | PC240M
    | Unrecognised(code: int)

  /** Nine fixed-point coefficients (row Y, U, V by column R, G, B), the luma
      offset, and whether a conversion applies at all (RGB passthrough when
      not). */
  datatype ConversionMatrix = ConversionMatrix(
    valid: bool,
    yR: int, yG: int, yB: int,
    uR: int, uG: int, uB: int,
    vR: int, vG: int, vB: int,
    offsetY: int)

  /** Luma weights of red and blue; green's weight is always derived. */
  datatype Weights = Weights(kr: real, kb: real) {
    function Kg(): real {
      1.0 - kr - kb
    }
  }

  /** Integer range constants of one bit depth and range: luma offset, luma
      and chroma code limits, luma excursion `sy` and chroma half-excursion
      `suv`. */
  datatype Ranges = Ranges(oy: int, ymin: int, ymax: int, sy: int, cmin: int, cmax: int, suv: int)

  /** The range constants of render.c:9-18, with `k << n` written as
      `k * 2^n`. */
  function RangeConstants(fullScale: bool, bpp: nat): (r: Ranges)
    requires 8 <= bpp <= 16
    ensures r.oy == r.ymin
    ensures 0 <= r.ymin < r.ymax < Pow2(bpp)
    ensures r.sy == r.ymax - r.ymin
    ensures 0 <= r.cmin < r.cmax < Pow2(bpp)
    ensures 2 * r.suv <= r.cmax - r.cmin <= 2 * r.suv + 1
  {
    var unit := Pow2(bpp - 8);
    var maxPixelValue := Pow2(bpp) - 1;
    Pow2Add(bpp - 8, 8);
    assert Pow2(8) == 256;
    var oy := if fullScale then 0 else 16 * unit;
    var ymin := (if fullScale then 0 else 16) * unit;
    var ymax := if fullScale then maxPixelValue else 235 * unit;
    var cmin := if fullScale then 0 else 16 * unit;
    var cmax := if fullScale then maxPixelValue else 240 * unit;
    Ranges(oy, ymin, ymax, ymax - ymin, cmin, cmax, (cmax - cmin) / 2)
  }

  /** The excursions in closed form: full scale spans every code, limited
      range spans 219 (luma) and 2 * 112 (chroma) codes scaled to the depth. */
  lemma RangesByDepth(bpp: nat)
    requires 8 <= bpp <= 16
    ensures RangeConstants(true, bpp).sy == Pow2(bpp) - 1
    ensures RangeConstants(true, bpp).suv == Pow2(bpp - 1) - 1
    ensures RangeConstants(false, bpp).sy == 219 * Pow2(bpp - 8)
    ensures RangeConstants(false, bpp).suv == 112 * Pow2(bpp - 8)
    ensures RangeConstants(true, bpp).oy == 0
    ensures RangeConstants(false, bpp).oy == 16 * Pow2(bpp - 8)
  {
    Pow2Add(bpp - 1, 1);
    assert Pow2(1) == 2;
  }

  /** At 8 bits: luma excursion 255 or 219, chroma half-excursion 127 or
      112, luma offset 0 or 16. */
  lemma EightBitRanges()
    ensures RangeConstants(true, 8) == Ranges(0, 0, 255, 255, 0, 255, 127)
    ensures RangeConstants(false, 8) == Ranges(16, 16, 235, 219, 16, 240, 112)
  {
    assert Pow2(8) == 256;
  }

  /** Round to nearest, halves upward: the rounding the coefficient code
      intends. */
  function RoundNearest(x: real): (r: int)
    ensures x - 0.5 < r as real <= x + 0.5
  {
    (x + 0.5).Floor
  }

  /** `(int)(x + 0.5)` as written: C's conversion truncates toward zero. */
  function RoundAsWritten(x: real): (r: int)
    ensures x + 0.5 >= 0.0 ==> r == RoundNearest(x)
    ensures r == RoundNearest(x) || r == RoundNearest(x) + 1
    ensures x - 0.5 < r as real < x + 1.5
  {
    var y := x + 0.5;
    if y >= 0.0 then y.Floor else
      var f := (-y).Floor;
      assert y <= -(f as real) < y + 1.0;
      assert y.Floor as real <= y < y.Floor as real + 1.0;
      -f
  }

  /** Below -1/2, unless `x + 1/2` is a whole number, the written rounding
      lands one above the nearest integer, so it is off by more than 1/2. */
  lemma AsWrittenMisroundsNegatives(x: real)
    requires x + 0.5 < 0.0
    requires (x + 0.5).Floor as real != x + 0.5
    ensures RoundAsWritten(x) == RoundNearest(x) + 1
    ensures RoundAsWritten(x) as real > x + 0.5
  {
    var y := x + 0.5;
    var f := (-y).Floor;
    var g := y.Floor;
    assert g as real < y < g as real + 1.0;
    assert f as real <= -y < f as real + 1.0;
    assert -(f as real) - 1.0 < y <= -(f as real);
    assert f == -g - 1;
  }

  /** The exact value of the green-to-U coefficient of limited-range BT.601
      at 8 bits with 16 fractional bits: about -19070.503. */
  function Bt601ChromaGreenExact(): real {
    112.0 * Weights(0.299, 0.114).Kg() / (0.114 - 1.0) * 65536.0 / 255.0
  }

  /** The written rounding stores -19070 where the nearest integer is -19071. */
  lemma Bt601ChromaGreenMisrounded()
    ensures RoundAsWritten(Bt601ChromaGreenExact()) == -19070
    ensures RoundNearest(Bt601ChromaGreenExact()) == -19071
  {
    var x := Bt601ChromaGreenExact();
    assert -19070.6 < x < -19070.5;
  }

  /** Limited-range BT.601 at 8 bits: the V row the renderer stores,
      28784 - 24102 - 4680, adds up to 2; rounded to nearest it is
      28784 - 24103 - 4681, which adds up to 0. */
  lemma Bt601ChromaRowAsWritten(prior: ConversionMatrix)
    ensures var m := FillMatrix(prior, BT601);
            m.vR == 28784 && m.vG == -24102 && m.vB == -4680 && m.vR + m.vG + m.vB == 2
    ensures var n := BuildMatrixNearest(StandardWeights(BT601), MatrixShift, false, 8);
            n.vR == 28784 && n.vG == -24103 && n.vB == -4681 && n.vR + n.vG + n.vB == 0
  {
    var w := StandardWeights(BT601);
    EightBitRanges();
    var e := ExactCoefficients(w, MatrixShift, false, 8);
    ExactIsProportional(w, MatrixShift, false, 8);
    UnitAtMatrixShift(112);
    var lc := 112.0 * 65536.0 / 255.0;
    assert e.vR == lc && e.vG * (0.299 - 1.0) == (1.0 - 0.299 - 0.114) * lc && e.vB * (0.299 - 1.0) == 0.114 * lc;
    assert 28784.0 < e.vR < 28784.5;
    assert -24103.5 < e.vG < -24103.0;
    assert -4681.5 < e.vB < -4681.0;
  }

  /** The exact fixed-point luma weight of one channel. */
  function LumaCoefficient(sy: int, k: real, shift: nat, srgb: int): real
    requires srgb > 0
  {
    sy as real * k * Pow2(shift) as real / srgb as real
  }

  /** The exact fixed-point chroma weight of one channel. */
  function ChromaCoefficient(suv: int, k: real, denominator: real, shift: nat, srgb: int): real
    requires srgb > 0 && denominator != 0.0
  {
    suv as real * k / denominator * Pow2(shift) as real / srgb as real
  }

  /** `sy * 2^shift / srgb`: one unit of weight in fixed point, the factor
      every exact coefficient shares. */
  function Unit(s: int, shift: nat, srgb: int): real
    requires srgb > 0
  {
    s as real * Pow2(shift) as real / srgb as real
  }

  /** A luma coefficient is its weight times the unit. */
  lemma LumaAsUnit(sy: int, k: real, shift: nat, srgb: int)
    requires srgb > 0
    ensures LumaCoefficient(sy, k, shift, srgb) == k * Unit(sy, shift, srgb)
  {
    var s, p, q := sy as real, Pow2(shift) as real, srgb as real;
    var u := s * p / q;
    assert u * q == s * p;
    assert (s * k * p / q) * q == s * k * p;
    assert (k * u) * q == k * (s * p);
  }

  /** A chroma coefficient, times its denominator, is its weight times the
      unit. */
  lemma ChromaAsUnit(suv: int, k: real, d: real, shift: nat, srgb: int)
    requires srgb > 0 && d != 0.0
    ensures ChromaCoefficient(suv, k, d, shift, srgb) * d == k * Unit(suv, shift, srgb)
  {
    var s, p, q := suv as real, Pow2(shift) as real, srgb as real;
    var u := s * p / q;
    var c := s * k / d * p / q;
    assert u * q == s * p;
    assert (s * k / d) * d == s * k;
    assert c * q == (s * k / d) * p;
    assert (c * d) * q == s * k * p;
    assert (k * u) * q == k * (s * p);
  }

  /** The nine exact coefficients of a matrix, before rounding. */
  datatype Coefficients = Coefficients(
    yR: real, yG: real, yB: real,
    uR: real, uG: real, uB: real,
    vR: real, vG: real, vB: real)

  /** A stored coefficient lies in `(x + lo, x + hi]` of its exact value. */
  predicate Close(k: int, x: real, lo: real, hi: real) {
    x + lo < k as real <= x + hi
  }

  /** Every stored coefficient of `m` is `Close` to its exact value. */
  predicate Near(m: ConversionMatrix, e: Coefficients, lo: real, hi: real) {
    && Close(m.yR, e.yR, lo, hi) && Close(m.yG, e.yG, lo, hi) && Close(m.yB, e.yB, lo, hi)
    && Close(m.uR, e.uR, lo, hi) && Close(m.uG, e.uG, lo, hi) && Close(m.uB, e.uB, lo, hi)
    && Close(m.vR, e.vR, lo, hi) && Close(m.vG, e.vG, lo, hi) && Close(m.vB, e.vB, lo, hi)
  }

  /** The exact coefficients of render.c:4-36 for given weights, `shift`
      fractional bits, range and depth.  The luma row adds up to the luma
      unit and each chroma row to zero; the unit coefficients `u_b` and `v_r`
      are not negative, nor is the luma row when the weights are not
      (`ExactIsProportional` gives every coefficient in terms of the
      weights). */
  function ExactCoefficients(w: Weights, shift: nat, fullScale: bool, bpp: nat): (e: Coefficients)
    requires 8 <= bpp <= 16
    requires w.kr != 1.0 && w.kb != 1.0
    ensures e.yR + e.yG + e.yB == Unit(RangeConstants(fullScale, bpp).sy, shift, Pow2(bpp) - 1)
    ensures e.uR + e.uG + e.uB == 0.0 && e.vR + e.vG + e.vB == 0.0
    ensures e.uB >= 0.0 && e.vR >= 0.0
    ensures NonNegative(w) ==> e.yR >= 0.0 && e.yG >= 0.0 && e.yB >= 0.0
  {
    var rc := RangeConstants(fullScale, bpp);
    var srgb := Pow2(bpp) - 1;
    ExactProportional(rc.sy, rc.suv, w, shift, srgb);
    ProportionalSums(Exact(rc.sy, rc.suv, w, shift, srgb), w, Unit(rc.sy, shift, srgb), Unit(rc.suv, shift, srgb));
    Exact(rc.sy, rc.suv, w, shift, srgb)
  }

  /** The relation of the exact coefficients to the weights, with `ly` and
      `lc` the (non-negative) luma and chroma units: the luma row is the
      weights times `ly`; the U row is `lc` on blue and the other weights
      times `lc` over `kb - 1`; the V row is `lc` on red and the other
      weights times `lc` over `kr - 1`. */
  predicate Proportional(e: Coefficients, w: Weights, ly: real, lc: real) {
    && ly >= 0.0 && lc >= 0.0
    && e.yR == w.kr * ly && e.yG == w.Kg() * ly && e.yB == w.kb * ly
    && e.uR * (w.kb - 1.0) == w.kr * lc && e.uG * (w.kb - 1.0) == w.Kg() * lc && e.uB == lc
    && e.vR == lc && e.vG * (w.kr - 1.0) == w.Kg() * lc && e.vB * (w.kr - 1.0) == w.kb * lc
  }

  /** The coefficients as render.c:25-33 computes them from the luma and
      chroma excursions `sy` and `suv` and the divisor `srgb`. */
  function Exact(sy: int, suv: int, w: Weights, shift: nat, srgb: int): Coefficients
    requires srgb > 0
    requires w.kr != 1.0 && w.kb != 1.0
  {
    Coefficients(
      LumaCoefficient(sy, w.kr, shift, srgb), LumaCoefficient(sy, w.Kg(), shift, srgb),
      LumaCoefficient(sy, w.kb, shift, srgb),
      ChromaCoefficient(suv, w.kr, w.kb - 1.0, shift, srgb), ChromaCoefficient(suv, w.Kg(), w.kb - 1.0, shift, srgb),
      ChromaCoefficient(suv, 1.0, 1.0, shift, srgb),
      ChromaCoefficient(suv, 1.0, 1.0, shift, srgb), ChromaCoefficient(suv, w.Kg(), w.kr - 1.0, shift, srgb),
      ChromaCoefficient(suv, w.kb, w.kr - 1.0, shift, srgb))
  }

  /** `Exact` is `Proportional` to the weights. */
  lemma ExactProportional(sy: int, suv: int, w: Weights, shift: nat, srgb: int)
    requires sy >= 0 && suv >= 0 && srgb > 0
    requires w.kr != 1.0 && w.kb != 1.0
    ensures Proportional(Exact(sy, suv, w, shift, srgb), w, Unit(sy, shift, srgb), Unit(suv, shift, srgb))
  {
    UnitNonNegative(sy, shift, srgb);
    UnitNonNegative(suv, shift, srgb);
    ExactLumaRow(sy, suv, w, shift, srgb);
    ExactChromaRows(sy, suv, w, shift, srgb);
  }

  /** The exact luma row is the weights times the luma unit. */
  lemma ExactLumaRow(sy: int, suv: int, w: Weights, shift: nat, srgb: int)
    requires srgb > 0
    requires w.kr != 1.0 && w.kb != 1.0
    ensures var e, ly := Exact(sy, suv, w, shift, srgb), Unit(sy, shift, srgb);
            e.yR == w.kr * ly && e.yG == w.Kg() * ly && e.yB == w.kb * ly
  {
    LumaAsUnit(sy, w.kr, shift, srgb);
    LumaAsUnit(sy, w.Kg(), shift, srgb);
    LumaAsUnit(sy, w.kb, shift, srgb);
  }

  /** The exact chroma rows: the chroma unit on their own primary, the
      other weights times the unit over `k - 1` elsewhere. */
  lemma ExactChromaRows(sy: int, suv: int, w: Weights, shift: nat, srgb: int)
    requires srgb > 0
    requires w.kr != 1.0 && w.kb != 1.0
    ensures var e, lc := Exact(sy, suv, w, shift, srgb), Unit(suv, shift, srgb);
            && e.uR * (w.kb - 1.0) == w.kr * lc && e.uG * (w.kb - 1.0) == w.Kg() * lc && e.uB == lc
            && e.vR == lc && e.vG * (w.kr - 1.0) == w.Kg() * lc && e.vB * (w.kr - 1.0) == w.kb * lc
  {
    var lc := Unit(suv, shift, srgb);
    ChromaAsUnit(suv, w.kr, w.kb - 1.0, shift, srgb);
    ChromaAsUnit(suv, w.Kg(), w.kb - 1.0, shift, srgb);
    ChromaAsUnit(suv, w.Kg(), w.kr - 1.0, shift, srgb);
    ChromaAsUnit(suv, w.kb, w.kr - 1.0, shift, srgb);
    assert ChromaCoefficient(suv, 1.0, 1.0, shift, srgb) == lc by {
      ChromaAsUnit(suv, 1.0, 1.0, shift, srgb);
    }
  }

  /** `ExactCoefficients` is `Proportional` to the weights, with the units
      of the range and depth. */
  lemma ExactIsProportional(w: Weights, shift: nat, fullScale: bool, bpp: nat)
    requires 8 <= bpp <= 16
    requires w.kr != 1.0 && w.kb != 1.0
    ensures var rc := RangeConstants(fullScale, bpp);
            Proportional(ExactCoefficients(w, shift, fullScale, bpp), w,
                         Unit(rc.sy, shift, Pow2(bpp) - 1), Unit(rc.suv, shift, Pow2(bpp) - 1))
  {
    var rc := RangeConstants(fullScale, bpp);
    ExactProportional(rc.sy, rc.suv, w, shift, Pow2(bpp) - 1);
  }

  /** Coefficients proportional to the weights: the luma row adds up to the
      luma unit, because green's weight is `1 - kr - kb`; each chroma row
      cancels, its own unit weight offset by the other two over `k - 1`; the
      unit coefficients `u_b` and `v_r` are not negative, nor is the luma row
      when the weights are not. */
  lemma ProportionalSums(e: Coefficients, w: Weights, ly: real, lc: real)
    requires Proportional(e, w, ly, lc) && w.kr != 1.0 && w.kb != 1.0
    ensures e.yR + e.yG + e.yB == ly
    ensures e.uR + e.uG + e.uB == 0.0 && e.vR + e.vG + e.vB == 0.0
    ensures e.uB >= 0.0 && e.vR >= 0.0
    ensures NonNegative(w) ==> e.yR >= 0.0 && e.yG >= 0.0 && e.yB >= 0.0
  {
    assert e.yR + e.yG + e.yB == (w.kr + w.Kg() + w.kb) * ly;
    RowCancels(e.uR, e.uG, w.kr, w.Kg(), w.kb - 1.0, lc);
    RowCancels(e.vB, e.vG, w.kb, w.Kg(), w.kr - 1.0, lc);
    if NonNegative(w) {
      ProductNonNegative(w.kr, ly);
      ProductNonNegative(w.Kg(), ly);
      ProductNonNegative(w.kb, ly);
    }
  }

  /** A product of non-negative reals is not negative. */
  lemma ProductNonNegative(a: real, b: real)
    requires a >= 0.0 && b >= 0.0
    ensures a * b >= 0.0
  {
  }

  /** Two coefficients `a = ka * lc / d` and `b = kg * lc / d` whose weights
      add up to `-d` cancel a third coefficient `lc`. */
  lemma RowCancels(a: real, b: real, ka: real, kg: real, d: real, lc: real)
    requires d != 0.0 && a * d == ka * lc && b * d == kg * lc && ka + kg == -d
    ensures a + b + lc == 0.0
  {
    assert (a + b + lc) * d == ka * lc + kg * lc + lc * d;
    assert ka * lc + kg * lc == (ka + kg) * lc;
  }

  /** A unit of a non-negative excursion is non-negative. */
  lemma UnitNonNegative(s: int, shift: nat, srgb: int)
    requires s >= 0 && srgb > 0
    ensures Unit(s, shift, srgb) >= 0.0
  {
    assert s as real * Pow2(shift) as real >= 0.0;
  }

  /** Whether all three luma weights are non-negative, as they are for every
      standard the renderer knows. */
  predicate NonNegative(w: Weights) {
    w.kr >= 0.0 && w.kb >= 0.0 && w.Kg() >= 0.0
  }

  /** Fills every field from the weights, the range and the depth
      (render.c:4-36); `shift` fractional bits, each coefficient rounded by
      `(int)(x + 0.5)`.  Each stored coefficient lies within `(-1/2, 3/2]` of
      its exact value.  The luma row adds up to within 3/2 of the luma unit
      when the weights are non-negative; each chroma row adds up to a value
      from -1 to 3, not always 0. */
  function BuildMatrix(w: Weights, shift: nat, fullScale: bool, bpp: nat): (m: ConversionMatrix)
    requires 8 <= bpp <= 16
    requires w.kr != 1.0 && w.kb != 1.0
    ensures m.valid
    ensures m.offsetY == RangeConstants(fullScale, bpp).ymin
    ensures Near(m, ExactCoefficients(w, shift, fullScale, bpp), -0.5, 1.5)
    ensures var exact := Unit(RangeConstants(fullScale, bpp).sy, shift, Pow2(bpp) - 1);
            exact - 1.5 < (m.yR + m.yG + m.yB) as real < exact + 4.5
    ensures NonNegative(w) ==>
              var exact := Unit(RangeConstants(fullScale, bpp).sy, shift, Pow2(bpp) - 1);
              exact - 1.5 < (m.yR + m.yG + m.yB) as real <= exact + 1.5
    ensures -1 <= m.uR + m.uG + m.uB <= 3
    ensures -1 <= m.vR + m.vG + m.vB <= 3
  {
    var rc := RangeConstants(fullScale, bpp);
    var e := ExactCoefficients(w, shift, fullScale, bpp);
    AsWrittenRow(e.yR, e.yG, e.yB);
    AsWrittenRow(e.uR, e.uG, e.uB);
    AsWrittenRow(e.vR, e.vG, e.vB);
    ConversionMatrix(
      true,
      RoundAsWritten(e.yR), RoundAsWritten(e.yG), RoundAsWritten(e.yB),
      RoundAsWritten(e.uR), RoundAsWritten(e.uG), RoundAsWritten(e.uB),
      RoundAsWritten(e.vR), RoundAsWritten(e.vG), RoundAsWritten(e.vB),
      rc.oy)
  }

  /** The matrix rounded to nearest, as the `+ 0.5` intends: each stored
      coefficient lies within 1/2 of its exact value, the luma row adds up to
      within 3/2 of the luma unit, and each chroma row adds up to -1, 0 or 1,
      so grey maps to neutral chroma. */
  function BuildMatrixNearest(w: Weights, shift: nat, fullScale: bool, bpp: nat): (m: ConversionMatrix)
    requires 8 <= bpp <= 16
    requires w.kr != 1.0 && w.kb != 1.0
    ensures m.valid
    ensures m.offsetY == RangeConstants(fullScale, bpp).ymin
    ensures Near(m, ExactCoefficients(w, shift, fullScale, bpp), -0.5, 0.5)
    ensures var exact := Unit(RangeConstants(fullScale, bpp).sy, shift, Pow2(bpp) - 1);
            exact - 1.5 < (m.yR + m.yG + m.yB) as real <= exact + 1.5
    ensures -1 <= m.uR + m.uG + m.uB <= 1
    ensures -1 <= m.vR + m.vG + m.vB <= 1
  {
    var rc := RangeConstants(fullScale, bpp);
    var e := ExactCoefficients(w, shift, fullScale, bpp);
    RoundedSum(e.yR, e.yG, e.yB);
    RoundedSum(e.uR, e.uG, e.uB);
    RoundedSum(e.vR, e.vG, e.vB);
    ConversionMatrix(
      true,
      RoundNearest(e.yR), RoundNearest(e.yG), RoundNearest(e.yB),
      RoundNearest(e.uR), RoundNearest(e.uG), RoundNearest(e.uB),
      RoundNearest(e.vR), RoundNearest(e.vG), RoundNearest(e.vB),
      rc.oy)
  }

  /** The two roundings side by side: every coefficient the code stores is
      the nearest one or one more, and for non-negative weights the luma row
      and the two unit coefficients (`u_b`, `v_r`) agree; only the negative
      chroma coefficients can differ. */
  lemma AsWrittenAgainstNearest(w: Weights, shift: nat, fullScale: bool, bpp: nat)
    requires 8 <= bpp <= 16
    requires w.kr != 1.0 && w.kb != 1.0
    ensures var m, n := BuildMatrix(w, shift, fullScale, bpp), BuildMatrixNearest(w, shift, fullScale, bpp);
            && m.offsetY == n.offsetY
            && (m.yR == n.yR || m.yR == n.yR + 1) && (m.yG == n.yG || m.yG == n.yG + 1)
            && (m.yB == n.yB || m.yB == n.yB + 1)
            && (m.uR == n.uR || m.uR == n.uR + 1) && (m.uG == n.uG || m.uG == n.uG + 1)
            && (m.vG == n.vG || m.vG == n.vG + 1) && (m.vB == n.vB || m.vB == n.vB + 1)
            && m.uB == n.uB && m.vR == n.vR
    ensures var m, n := BuildMatrix(w, shift, fullScale, bpp), BuildMatrixNearest(w, shift, fullScale, bpp);
            NonNegative(w) ==> m.yR == n.yR && m.yG == n.yG && m.yB == n.yB
  {
    var e := ExactCoefficients(w, shift, fullScale, bpp);
  }

  /** Rounding three values to nearest moves their sum by at most 3/2. */
  lemma RoundedSum(a: real, b: real, c: real)
    ensures a + b + c - 1.5 < (RoundNearest(a) + RoundNearest(b) + RoundNearest(c)) as real <= a + b + c + 1.5
  {
    var ra, rb, rc := RoundNearest(a), RoundNearest(b), RoundNearest(c);
    assert (ra + rb + rc) as real == ra as real + rb as real + rc as real;
  }

  /** Rounding three values as written moves their sum into
      `(-3/2, 9/2)`; into `(-3/2, 7/2)` when one of them is not negative,
      since that one is rounded to nearest; and by at most 3/2 when none is
      below -1/2. */
  lemma AsWrittenRow(a: real, b: real, c: real)
    ensures var s := (RoundAsWritten(a) + RoundAsWritten(b) + RoundAsWritten(c)) as real;
            a + b + c - 1.5 < s < a + b + c + 4.5
    ensures var s := (RoundAsWritten(a) + RoundAsWritten(b) + RoundAsWritten(c)) as real;
            a >= 0.0 || b >= 0.0 || c >= 0.0 ==> s < a + b + c + 3.5
    ensures var s := (RoundAsWritten(a) + RoundAsWritten(b) + RoundAsWritten(c)) as real;
            a >= -0.5 && b >= -0.5 && c >= -0.5 ==> a + b + c - 1.5 < s <= a + b + c + 1.5
  {
    var ra, rb, rc := RoundAsWritten(a), RoundAsWritten(b), RoundAsWritten(c);
    assert (ra + rb + rc) as real == ra as real + rb as real + rc as real;
    RoundedSum(a, b, c);
  }

  /** Luma weights of each standard (render.c:48-77).  All three are
      positive, and green's derived weight is the one the code notes beside
      each call. */
  function StandardWeights(mt: MatrixType): (w: Weights)
    requires !(mt.MatrixNone? || mt.Unrecognised?)
    ensures 0.0 < w.kr < 1.0 && 0.0 < w.kb < 1.0 && 0.0 < w.Kg() < 1.0
    ensures (mt.BT601? || mt.PC601?) ==> w.Kg() == 0.587
    ensures (mt.BT709? || mt.PC709?) ==> w.Kg() == 0.7152
    ensures (mt.BT2020? || mt.PC2020?) ==> w.Kg() == 0.6780
    ensures (mt.TVFCC? || mt.PCFCC?) ==> w.Kg() == 0.590
    ensures (mt.TV240M? || mt.PC240M?) ==> w.Kg() == 0.701
  {
    match mt
    case BT601 => Weights(0.299, 0.114)
    case PC601 => Weights(0.299, 0.114)
    case BT709 => Weights(0.2126, 0.0722)
    case PC709 => Weights(0.2126, 0.0722)
    case BT2020 => Weights(0.2627, 0.0593)
    case PC2020 => Weights(0.2627, 0.0593)
    case TVFCC => Weights(0.300, 0.110)
    case PCFCC => Weights(0.300, 0.110)
    case TV240M => Weights(0.212, 0.087)
    case PC240M => Weights(0.212, 0.087)
  }

  /** Whether a recognised setting selects full ("PC") range. */
  predicate FullScale(mt: MatrixType) {
    mt.PC601? || mt.PC709? || mt.PC2020? || mt.PCFCC? || mt.PC240M?
  }

  /** Fixed-point precision of the renderer's matrices. */
  const MatrixShift: nat := 16

  /** Selects the matrix for a setting at 8 bits (render.c:38-81).  "None"
      and unrecognised settings only clear `valid`, leaving every other
      field as it was. */
  function FillMatrix(prior: ConversionMatrix, mt: MatrixType): (m: ConversionMatrix)
    ensures m.valid <==> !(mt.MatrixNone? || mt.Unrecognised?)
    ensures !m.valid ==> m == prior.(valid := false)
    ensures m.valid ==> m.offsetY == (if FullScale(mt) then 0 else 16)
    ensures m.valid ==> var exact := Unit(RangeConstants(FullScale(mt), 8).sy, MatrixShift, 255);
                        exact - 1.5 < (m.yR + m.yG + m.yB) as real <= exact + 1.5
    ensures m.valid ==> -1 <= m.uR + m.uG + m.uB <= 3 && -1 <= m.vR + m.vG + m.vB <= 3
  {
    if mt.MatrixNone? || mt.Unrecognised? then
      prior.(valid := false)
    else
      EightBitRanges();
      assert NonNegative(StandardWeights(mt));
      BuildMatrix(StandardWeights(mt), MatrixShift, FullScale(mt), 8)
  }

  /** At 8 bits, the all-white colour's luma before the division by 2^16 is
      within 383 of `sy * 2^16`, so it lands on the top luma code. */
  lemma WhiteLuma(mt: MatrixType, prior: ConversionMatrix)
    requires !(mt.MatrixNone? || mt.Unrecognised?)
    ensures var m := FillMatrix(prior, mt);
            var sy := RangeConstants(FullScale(mt), 8).sy;
            -383 < 255 * (m.yR + m.yG + m.yB) - sy * 65536 < 383
  {
    var m := FillMatrix(prior, mt);
    var sy := RangeConstants(FullScale(mt), 8).sy;
    UnitAtMatrixShift(sy);
    ScaledBound(m.yR + m.yG + m.yB, sy, Unit(sy, MatrixShift, 255));
  }

  /** The 8-bit unit at the renderer's precision is `sy * 65536 / 255`. */
  lemma UnitAtMatrixShift(sy: int)
    ensures Unit(sy, MatrixShift, 255) == sy as real * 65536.0 / 255.0
  {
    Pow2Add(8, 8);
    assert Pow2(8) == 256;
  }

  /** A sum within 3/2 of `sy * 65536 / 255`, scaled by 255, is within 383
      of `sy * 65536`. */
  lemma ScaledBound(total: int, sy: int, exact: real)
    requires exact == sy as real * 65536.0 / 255.0
    requires exact - 1.5 < total as real <= exact + 1.5
    ensures -383 < 255 * total - sy * 65536 < 383
  {
    assert 255.0 * exact == sy as real * 65536.0;
    assert (255 * total - sy * 65536) as real == 255.0 * (total as real - exact);
  }
}

=== FILE: packed.dfy ===
/** The compositors for packed frames (render.c, `apply_rgba`, `apply_rgb`,
    `apply_rgb32`, `apply_rgb64`, `apply_rgb48`, `apply_yuy2`): every pixel
    of the frame holds its components side by side, B, G, R (and A) for the
    RGB formats, Y0 U Y1 V for a pair of pixels in YUY2.  Row `y` of the
    frame starts `y * pitch` samples into the buffer, pixel `j` of a row
    `j * step` samples further. */
module Packed {
  import opened Primitives
  import opened Layout
  import opened Accumulator

  /** The accumulator plane that feeds component `lane` of a B, G, R pixel:
      blue comes from plane 3, green from plane 2, red from plane 1. */
  function BgrPlane(o: Overlay, lane: nat): seq<int> {
    if lane == 0 then o.c3 else if lane == 1 then o.c2 else o.c1
  }

  /** The new value of component `lane` of pixel (`y`, `j`) of a frame with
      an alpha component at offset 3, now `v` (render.c:248-256): B, G and R
      are `dblend`ed with the pixel's original alpha and the combined
      coverage `scale(srcA, 255, dstA)` kept in a `uint32_t`; alpha becomes
      `div255` of that combined coverage. */
  function AlphaOverValue(ops: Ops, d: Depth, o: Overlay, width: nat, data: seq<int>, pitch: nat,
                          y: nat, j: nat, lane: nat, v: int): int
  {
    var src := y * width + j;
    var a := Get(o.a, src);
    var da := Get(data, y * pitch + j * 4 + 3);
    var sa := Wrap32(ops.scale(a, 255, da));
    if lane == 3 then Store(d, ops.div255(sa)) else Store(d, ops.dblend(a, Get(BgrPlane(o, lane), src), da, v, sa))
  }

  /** Sample `t` of a 4-component B, G, R, A frame after compositing: the
      pixel it belongs to is rewritten only inside the `height` by `width`
      frame and only where the overlay's coverage is non-zero. */
  function AlphaOverSample(ops: Ops, d: Depth, o: Overlay, width: nat, height: nat, data: seq<int>, pitch: nat,
                           t: nat): int
    requires t < |data|
  {
    if pitch == 0 then data[t]
    else
      var s := Locate(t, pitch, 4);
      if s.row < height && s.col < width && Get(o.a, s.row * width + s.col) != 0
      then AlphaOverValue(ops, d, o, width, data, pitch, s.row, s.col, s.lane, data[t])
      else data[t]
  }

  /** The new value of colour component `lane` of pixel (`y`, `j`) of an
      opaque frame, now `v`: `blend` with the overlay's coverage and colour
      (render.c:286-291, 320-325). */
  function OpaqueOverValue(ops: Ops, d: Depth, o: Overlay, width: nat, y: nat, j: nat, lane: nat, v: int): int {
    var src := y * width + j;
    Store(d, ops.blend(Get(o.a, src), Get(BgrPlane(o, lane), src), v))
  }

  /** Sample `t` of an opaque B, G, R frame with `step` samples per pixel
      after compositing: only the first three samples of a pixel are
      rewritten, inside the frame and where coverage is non-zero. */
  function OpaqueOverSample(ops: Ops, d: Depth, step: nat, o: Overlay, width: nat, height: nat, data: seq<int>,
                            pitch: nat, t: nat): int
    requires t < |data|
  {
    if pitch == 0 || step == 0 then data[t]
    else
      var s := Locate(t, pitch, step);
      if s.row < height && s.col < width && s.lane < 3 && Get(o.a, s.row * width + s.col) != 0
      then OpaqueOverValue(ops, d, o, width, s.row, s.col, s.lane, data[t])
      else data[t]
  }

  /** Whether the frame and the overlay hold every pixel the compositor
      visits: `lanes` samples of each of `cols` pixels of `step` samples in
      each of `height` rows, fed by a `height` by `srcCols` block of the
      overlay. */
  predicate PackedFits(o: Overlay, width: nat, height: nat, data: seq<int>, pitch: nat, step: nat, cols: nat,
                       lanes: nat, srcCols: nat)
  {
    && o.Uniform() && o.Spans(height, srcCols, width)
    && BlockFits(pitch, step, height, cols, lanes, |data|)
  }

  /** Composites onto a B, G, R, A frame of samples of depth `d`. */
  method AlphaOver(ops: Ops, d: Depth, o: Overlay, width: nat, height: nat, data: seq<int>, pitch: nat)
    returns (out: seq<int>)
    requires PackedFits(o, width, height, data, pitch, 4, width, 4, width)
    ensures |out| == |data|
    ensures forall t | 0 <= t < |data| :: out[t] == AlphaOverSample(ops, d, o, width, height, data, pitch, t)
  {
    out := SweepLanes(data, pitch, 4, height, width, 4,
      (y: nat, j: nat, e: nat) => Get(o.a, y * width + j) != 0,
      (y: nat, j: nat, e: nat, v: int) => AlphaOverValue(ops, d, o, width, data, pitch, y, j, e, v));
  }

  /** Composites onto an opaque B, G, R frame with `step` samples per pixel. */
  method OpaqueOver(ops: Ops, d: Depth, step: nat, o: Overlay, width: nat, height: nat, data: seq<int>, pitch: nat)
    returns (out: seq<int>)
    requires 3 <= step && PackedFits(o, width, height, data, pitch, step, width, 3, width)
    ensures |out| == |data|
    ensures forall t | 0 <= t < |data| :: out[t] == OpaqueOverSample(ops, d, step, o, width, height, data, pitch, t)
  {
    out := SweepLanes(data, pitch, step, height, width, 3,
      (y: nat, j: nat, e: nat) => Get(o.a, y * width + j) != 0,
      (y: nat, j: nat, e: nat, v: int) => OpaqueOverValue(ops, d, o, width, y, j, e, v));
  }

  /** Whether sample `t` lies in a pixel the compositor visits and that pixel's
      coverage is non-zero. */
  predicate CoveredPixel(o: Overlay, width: nat, height: nat, pitch: nat, step: nat, t: nat) {
    pitch > 0 && step > 0 &&
    var s := Locate(t, pitch, step);
    s.row < height && s.col < width && Get(o.a, s.row * width + s.col) != 0
  }

  /** `apply_rgba` (render.c:233-269): 8-bit B, G, R, A.  Only pixels with
      non-zero coverage change. */
  method ApplyRgba(ops: Ops, o: Overlay, data: seq<int>, pitch: nat, width: nat, height: nat)
    returns (out: seq<int>)
    requires PackedFits(o, width, height, data, pitch, 4, width, 4, width)
    ensures |out| == |data|
    ensures forall t | 0 <= t < |data| :: out[t] == AlphaOverSample(ops, Depth8, o, width, height, data, pitch, t)
    ensures forall t | 0 <= t < |data| && !CoveredPixel(o, width, height, pitch, 4, t) :: out[t] == data[t]
  {
    out := AlphaOver(ops, Depth8, o, width, height, data, pitch);
  }

  /** `apply_rgb64` (render.c:339-380): 16-bit B, G, R, A; the byte pitch is
      halved to count samples. */
  method ApplyRgb64(ops: Ops, o: Overlay, data: seq<int>, pitch: nat, width: nat, height: nat)
    returns (out: seq<int>)
    requires PackedFits(o, width, height, data, pitch / 2, 4, width, 4, width)
    ensures |out| == |data|
    ensures forall t | 0 <= t < |data| ::
              out[t] == AlphaOverSample(ops, Depth16, o, width, height, data, SamplePitch(Depth16, pitch), t)
    ensures forall t | 0 <= t < |data| && !CoveredPixel(o, width, height, pitch / 2, 4, t) :: out[t] == data[t]
  {
    out := AlphaOver(ops, Depth16, o, width, height, data, pitch / 2);
  }

  /** `apply_rgb` (render.c:271-303): 8-bit B, G, R, three samples per
      pixel. */
  method ApplyRgb(ops: Ops, o: Overlay, data: seq<int>, pitch: nat, width: nat, height: nat)
    returns (out: seq<int>)
    requires PackedFits(o, width, height, data, pitch, 3, width, 3, width)
    ensures |out| == |data|
    ensures forall t | 0 <= t < |data| :: out[t] == OpaqueOverSample(ops, Depth8, 3, o, width, height, data, pitch, t)
    ensures forall t | 0 <= t < |data| && !CoveredPixel(o, width, height, pitch, 3, t) :: out[t] == data[t]
  {
    out := OpaqueOver(ops, Depth8, 3, o, width, height, data, pitch);
  }

  /** `apply_rgb32` (render.c:305-337): 8-bit B, G, R, X, four samples per
      pixel of which the fourth is never written. */
  method ApplyRgb32(ops: Ops, o: Overlay, data: seq<int>, pitch: nat, width: nat, height: nat)
    returns (out: seq<int>)
    requires PackedFits(o, width, height, data, pitch, 4, width, 3, width)
    ensures |out| == |data|
    ensures forall t | 0 <= t < |data| :: out[t] == OpaqueOverSample(ops, Depth8, 4, o, width, height, data, pitch, t)
    ensures forall t | 0 <= t < |data| && !CoveredPixel(o, width, height, pitch, 4, t) :: out[t] == data[t]
    ensures pitch > 0 ==> forall t | 0 <= t < |data| && t % pitch % 4 == 3 :: out[t] == data[t]
  {
    out := OpaqueOver(ops, Depth8, 4, o, width, height, data, pitch);
  }

  /** `apply_rgb48` (render.c:382-419): 16-bit B, G, R, three samples per
      pixel; the byte pitch is halved to count samples. */
  method ApplyRgb48(ops: Ops, o: Overlay, data: seq<int>, pitch: nat, width: nat, height: nat)
    returns (out: seq<int>)
    requires PackedFits(o, width, height, data, pitch / 2, 3, width, 3, width)
    ensures |out| == |data|
    ensures forall t | 0 <= t < |data| ::
              out[t] == OpaqueOverSample(ops, Depth16, 3, o, width, height, data, SamplePitch(Depth16, pitch), t)
    ensures forall t | 0 <= t < |data| && !CoveredPixel(o, width, height, pitch / 2, 3, t) :: out[t] == data[t]
  {
    out := OpaqueOver(ops, Depth16, 3, o, width, height, data, pitch / 2);
  }

  /** The new value of sample `lane` of the pixel pair starting at column
      `2 * k` of row `y` of a YUY2 frame, now `v` (render.c:444-451): the two
      lumas are `blend`ed with their own coverage, U and V with `blend2`
      over both pixels of the pair. */
  function Yuy2Value(ops: Ops, o: Overlay, width: nat, y: nat, k: nat, lane: nat, v: int): int {
    var s0 := y * width + 2 * k;
    var s1 := s0 + 1;
    var a0, a1 := Get(o.a, s0), Get(o.a, s1);
    Store(Depth8,
      if lane == 0 then ops.blend(a0, Get(o.c1, s0), v)
      else if lane == 2 then ops.blend(a1, Get(o.c1, s1), v)
      else if lane == 1 then ops.blend2(a0, Get(o.c2, s0), a1, Get(o.c2, s1), v)
      else ops.blend2(a0, Get(o.c3, s0), a1, Get(o.c3, s1), v))
  }

  /** The summed coverage of the pixel pair starting at column `2 * k`. */
  function PairCoverage(o: Overlay, width: nat, y: nat, k: nat): int {
    Get(o.a, y * width + 2 * k) + Get(o.a, y * width + 2 * k + 1)
  }

  /** Sample `t` of a YUY2 frame after compositing: a pair of pixels
      starting at an even column below `width` is rewritten, all four
      samples, when its summed coverage is non-zero. */
  function Yuy2Sample(ops: Ops, o: Overlay, width: nat, height: nat, data: seq<int>, pitch: nat, t: nat): int
    requires t < |data|
  {
    if pitch == 0 then data[t]
    else
      var s := Locate(t, pitch, 4);
      if s.row < height && 2 * s.col < width && PairCoverage(o, width, s.row, s.col) != 0
      then Yuy2Value(ops, o, width, s.row, s.col, s.lane, data[t])
      else data[t]
  }

  /** The loop `for (j = 0; j < width; j += 2)` visits `(width + 1) / 2`
      pairs: exactly those starting below `width`. */
  lemma PairCount(width: nat, k: nat)
    ensures k < (width + 1) / 2 <==> 2 * k < width
  {
  }

  /** `apply_yuy2` (render.c:421-468): 8-bit Y0 U Y1 V pairs. */
  method ApplyYuy2(ops: Ops, o: Overlay, data: seq<int>, pitch: nat, width: nat, height: nat)
    returns (out: seq<int>)
    requires PackedFits(o, width, height, data, pitch, 4, (width + 1) / 2, 4, 2 * ((width + 1) / 2))
    ensures |out| == |data|
    ensures forall t | 0 <= t < |data| :: out[t] == Yuy2Sample(ops, o, width, height, data, pitch, t)
  {
    out := SweepLanes(data, pitch, 4, height, (width + 1) / 2, 4,
      (y: nat, k: nat, e: nat) => PairCoverage(o, width, y, k) != 0,
      (y: nat, k: nat, e: nat, v: int) => Yuy2Value(ops, o, width, y, k, e, v));
    forall t | 0 <= t < |data|
      ensures out[t] == Yuy2Sample(ops, o, width, height, data, pitch, t)
    {
      if pitch > 0 {
        PairCount(width, Locate(t, pitch, 4).col);
      }
    }
  }

  /** Summed coverage is non-zero exactly when one of the two pixels is
      covered, since coverage is never negative. */
  lemma PairCoverageNonZero(o: Overlay, width: nat, y: nat, k: nat)
    requires 0 <= Get(o.a, y * width + 2 * k) && 0 <= Get(o.a, y * width + 2 * k + 1)
    ensures PairCoverage(o, width, y, k) != 0 <==>
            Get(o.a, y * width + 2 * k) != 0 || Get(o.a, y * width + 2 * k + 1) != 0
  {
  }
}

=== FILE: planar.dfy ===
/** The compositors for planar frames (render.c, `apply_yv12`,
    `apply_yuv420`, `apply_yv411`, `apply_yv16`, `apply_yuv422`,
    `apply_yv24`, `apply_yuv444`, `apply_y8`, `apply_y`): luma in one plane,
    the two chroma components in planes of their own, each chroma sample
    shared by a group of luma samples.  The loops walk the groups; a group
    is composited only when its summed coverage is non-zero. */
module Planar {
  import opened Primitives
  import opened Layout
  import opened Accumulator

  /** How many luma samples share one chroma sample. */
  datatype Sampling = S444 | S422 | S420 | S411 {

    /** Luma rows per group. */
    function Rows(): nat {
      if S420? then 2 else 1
    }

    /** Luma columns per group. */
    function Cols(): nat {
      match this
      case S444 => 1
      case S411 => 4
      case _ => 2
    }

    /** Group rows the loop visits: `for (i = 0; i < height; i += 2)` for
        4:2:0, every row otherwise. */
    function GroupRows(height: nat): nat {
      if S420? then (height + 1) / 2 else height
    }

    /** Groups per row the loop visits: `j < width` in steps of 2 for 4:2:2
        and 4:2:0, `j < width / 4` for 4:1:1. */
    function GroupCols(width: nat): nat {
      match this
      case S444 => width
      case S411 => width / 4
      case _ => (width + 1) / 2
    }
  }

  /** Overlay offset of member (`dy`, `dx`) of group (`gy`, `gx`): the
      overlay is a full-resolution plane `width` samples wide. */
  function MemberIndex(smp: Sampling, width: nat, gy: nat, gx: nat, dy: nat, dx: nat): nat {
    (smp.Rows() * gy + dy) * width + smp.Cols() * gx + dx
  }

  /** Sample of overlay plane `p` at member (`dy`, `dx`) of a group. */
  function Member(p: seq<int>, smp: Sampling, width: nat, gy: nat, gx: nat, dy: nat, dx: nat): int {
    Get(p, MemberIndex(smp, width, gy, gx, dy, dx))
  }

  /** The summed coverage of a group, the loops' test (render.c:506, 701,
      650, 798). */
  function GroupCoverage(smp: Sampling, o: Overlay, width: nat, gy: nat, gx: nat): int {
    var a := o.a;
    match smp
    case S444 => Member(a, smp, width, gy, gx, 0, 0)
    case S422 => Member(a, smp, width, gy, gx, 0, 0) + Member(a, smp, width, gy, gx, 0, 1)
    case S420 => Member(a, smp, width, gy, gx, 0, 0) + Member(a, smp, width, gy, gx, 0, 1)
                 + Member(a, smp, width, gy, gx, 1, 0) + Member(a, smp, width, gy, gx, 1, 1)
    case S411 => Member(a, smp, width, gy, gx, 0, 0) + Member(a, smp, width, gy, gx, 0, 1)
                 + Member(a, smp, width, gy, gx, 0, 2) + Member(a, smp, width, gy, gx, 0, 3)
  }

  /** The new value of a chroma sample, now `v`, of group (`gy`, `gx`) fed
      by overlay plane `src`: `blend` of the one member for 4:4:4 (render.c:
      800-801), `blend2` of the two for 4:2:2 (render.c:704-707), `blend4` of
      the four in row-major order for 4:2:0 (render.c:511-518) and 4:1:1
      (render.c:655-664). */
  function ChromaValue(ops: Ops, d: Depth, smp: Sampling, o: Overlay, src: seq<int>, width: nat,
                       gy: nat, gx: nat, v: int): int
  {
    var a := o.a;
    Store(d,
      match smp
      case S444 => ops.blend(Member(a, smp, width, gy, gx, 0, 0), Member(src, smp, width, gy, gx, 0, 0), v)
      case S422 => ops.blend2(Member(a, smp, width, gy, gx, 0, 0), Member(src, smp, width, gy, gx, 0, 0),
                              Member(a, smp, width, gy, gx, 0, 1), Member(src, smp, width, gy, gx, 0, 1), v)
      case S420 => ops.blend4(Member(a, smp, width, gy, gx, 0, 0), Member(src, smp, width, gy, gx, 0, 0),
                              Member(a, smp, width, gy, gx, 0, 1), Member(src, smp, width, gy, gx, 0, 1),
                              Member(a, smp, width, gy, gx, 1, 0), Member(src, smp, width, gy, gx, 1, 0),
                              Member(a, smp, width, gy, gx, 1, 1), Member(src, smp, width, gy, gx, 1, 1), v)
      case S411 => ops.blend4(Member(a, smp, width, gy, gx, 0, 0), Member(src, smp, width, gy, gx, 0, 0),
                              Member(a, smp, width, gy, gx, 0, 1), Member(src, smp, width, gy, gx, 0, 1),
                              Member(a, smp, width, gy, gx, 0, 2), Member(src, smp, width, gy, gx, 0, 2),
                              Member(a, smp, width, gy, gx, 0, 3), Member(src, smp, width, gy, gx, 0, 3), v))
  }

  /** The new value of the luma sample, now `v`, in row `y` and column
      `Cols * gx + dx`: `blend` with that position's own coverage and luma. */
  function LumaValue(ops: Ops, d: Depth, smp: Sampling, o: Overlay, width: nat, y: nat, gx: nat, dx: nat, v: int): int {
    var src := y * width + smp.Cols() * gx + dx;
    Store(d, ops.blend(Get(o.a, src), Get(o.c1, src), v))
  }

  /** Sample `t` of a luma plane after compositing: row `t / pitch`, column
      `t % pitch`, which lies in group (`row / Rows`, `column / Cols`); the
      sample is rewritten when that group is one the loop visits and its
      summed coverage is non-zero. */
  function LumaSample(ops: Ops, d: Depth, smp: Sampling, o: Overlay, width: nat, height: nat,
                      plane: seq<int>, pitch: nat, t: nat): int
    requires t < |plane|
  {
    if pitch == 0 then plane[t]
    else
      var s := Locate(t, pitch, smp.Cols());
      if s.row < smp.Rows() * smp.GroupRows(height) && s.col < smp.GroupCols(width)
         && GroupCoverage(smp, o, width, s.row / smp.Rows(), s.col) != 0
      then LumaValue(ops, d, smp, o, width, s.row, s.col, s.lane, plane[t])
      else plane[t]
  }

  /** Sample `t` of a chroma plane fed by overlay plane `src` after
      compositing: chroma row `t / pitch`, column `t % pitch` (`Locate` with
      one-sample pixels) is group (`gy`, `gx`); it is rewritten when the loop
      visits that group and the group's summed coverage is non-zero. */
  function ChromaSample(ops: Ops, d: Depth, smp: Sampling, o: Overlay, src: seq<int>, width: nat, height: nat,
                        plane: seq<int>, pitch: nat, t: nat): int
    requires t < |plane|
  {
    if pitch == 0 then plane[t]
    else
      var s := Locate(t, pitch, 1);
      if s.row < smp.GroupRows(height) && s.col < smp.GroupCols(width) && GroupCoverage(smp, o, width, s.row, s.col) != 0
      then ChromaValue(ops, d, smp, o, src, width, s.row, s.col, plane[t])
      else plane[t]
  }

  /** The overlay holds every member of every visited group. */
  predicate SourceFits(smp: Sampling, o: Overlay, width: nat, height: nat) {
    o.Uniform() && o.Spans(smp.Rows() * smp.GroupRows(height), smp.Cols() * smp.GroupCols(width), width)
  }

  /** A luma plane holds every luma sample of every visited group. */
  predicate LumaFits(smp: Sampling, width: nat, height: nat, n: nat, pitch: nat) {
    BlockFits(pitch, smp.Cols(), smp.Rows() * smp.GroupRows(height), smp.GroupCols(width), smp.Cols(), n)
  }

  /** A chroma plane holds one sample for every visited group. */
  predicate ChromaFits(smp: Sampling, width: nat, height: nat, n: nat, pitch: nat) {
    BlockFits(pitch, 1, smp.GroupRows(height), smp.GroupCols(width), 1, n)
  }

  /** Composites the luma plane: each visited group with non-zero coverage
      blends all of its luma samples. */
  method BlendLuma(ops: Ops, d: Depth, smp: Sampling, o: Overlay, width: nat, height: nat, plane: seq<int>, pitch: nat)
    returns (out: seq<int>)
    requires LumaFits(smp, width, height, |plane|, pitch)
    ensures |out| == |plane|
    ensures forall t | 0 <= t < |plane| :: out[t] == LumaSample(ops, d, smp, o, width, height, plane, pitch, t)
  {
    out := SweepLanes(plane, pitch, smp.Cols(), smp.Rows() * smp.GroupRows(height), smp.GroupCols(width), smp.Cols(),
      (y: nat, gx: nat, dx: nat) => GroupCoverage(smp, o, width, y / smp.Rows(), gx) != 0,
      (y: nat, gx: nat, dx: nat, v: int) => LumaValue(ops, d, smp, o, width, y, gx, dx, v));
  }

  /** Composites a chroma plane fed by overlay plane `src`: one sample per
      visited group with non-zero coverage. */
  method BlendChroma(ops: Ops, d: Depth, smp: Sampling, o: Overlay, src: seq<int>, width: nat, height: nat,
                     plane: seq<int>, pitch: nat)
    returns (out: seq<int>)
    requires ChromaFits(smp, width, height, |plane|, pitch)
    ensures |out| == |plane|
    ensures forall t | 0 <= t < |plane| :: out[t] == ChromaSample(ops, d, smp, o, src, width, height, plane, pitch, t)
  {
    out := SweepLanes(plane, pitch, 1, smp.GroupRows(height), smp.GroupCols(width), 1,
      (gy: nat, gx: nat, e: nat) => GroupCoverage(smp, o, width, gy, gx) != 0,
      (gy: nat, gx: nat, e: nat, v: int) => ChromaValue(ops, d, smp, o, src, width, gy, gx, v));
  }

  /** The three planes of a YUV frame after compositing. */
  datatype Planes = Planes(y: seq<int>, u: seq<int>, v: seq<int>)

  /** Whether the frame's planes hold every sample the compositor visits:
      luma rows `lumaPitch` samples apart, chroma rows `chromaPitch` apart. */
  predicate FrameFits(smp: Sampling, o: Overlay, width: nat, height: nat, f: Planes, lumaPitch: nat, chromaPitch: nat) {
    && SourceFits(smp, o, width, height)
    && LumaFits(smp, width, height, |f.y|, lumaPitch)
    && ChromaFits(smp, width, height, |f.u|, chromaPitch)
    && ChromaFits(smp, width, height, |f.v|, chromaPitch)
  }

  /** The frame after compositing, sample by sample: luma from plane 1 of
      the overlay, U from plane 2, V from plane 3. */
  predicate Composited(ops: Ops, d: Depth, smp: Sampling, o: Overlay, width: nat, height: nat, f: Planes,
                       lumaPitch: nat, chromaPitch: nat, r: Planes)
  {
    && |r.y| == |f.y| && |r.u| == |f.u| && |r.v| == |f.v|
    && (forall t | 0 <= t < |f.y| :: r.y[t] == LumaSample(ops, d, smp, o, width, height, f.y, lumaPitch, t))
    && (forall t | 0 <= t < |f.u| :: r.u[t] == ChromaSample(ops, d, smp, o, o.c2, width, height, f.u, chromaPitch, t))
    && (forall t | 0 <= t < |f.v| :: r.v[t] == ChromaSample(ops, d, smp, o, o.c3, width, height, f.v, chromaPitch, t))
  }

  /** Composites the three planes of a YUV frame. */
  method Composite(ops: Ops, d: Depth, smp: Sampling, o: Overlay, width: nat, height: nat, f: Planes,
                   lumaPitch: nat, chromaPitch: nat)
    returns (r: Planes)
    requires FrameFits(smp, o, width, height, f, lumaPitch, chromaPitch)
    ensures Composited(ops, d, smp, o, width, height, f, lumaPitch, chromaPitch, r)
  {
    var y := BlendLuma(ops, d, smp, o, width, height, f.y, lumaPitch);
    var u := BlendChroma(ops, d, smp, o, o.c2, width, height, f.u, chromaPitch);
    var v := BlendChroma(ops, d, smp, o, o.c3, width, height, f.v, chromaPitch);
    r := Planes(y, u, v);
  }

  /** `apply_yv12` (render.c:470-545): 8-bit 4:2:0; luma rows `pitch0`
      apart, chroma rows `pitch1` apart. */
  method ApplyYv12(ops: Ops, o: Overlay, f: Planes, pitch0: nat, pitch1: nat, width: nat, height: nat)
    returns (r: Planes)
    requires FrameFits(S420, o, width, height, f, pitch0, pitch1)
    ensures Composited(ops, Depth8, S420, o, width, height, f, pitch0, pitch1, r)
  {
    r := Composite(ops, Depth8, S420, o, width, height, f, pitch0, pitch1);
  }

  /** `apply_yuv420` (render.c:547-631): 16-bit 4:2:0; both byte pitches
      are halved to count samples. */
  method ApplyYuv420(ops: Ops, o: Overlay, f: Planes, pitch0: nat, pitch1: nat, width: nat, height: nat)
    returns (r: Planes)
    requires FrameFits(S420, o, width, height, f, pitch0 / 2, pitch1 / 2)
    ensures Composited(ops, Depth16, S420, o, width, height, f,
                       SamplePitch(Depth16, pitch0), SamplePitch(Depth16, pitch1), r)
  {
    r := Composite(ops, Depth16, S420, o, width, height, f, pitch0 / 2, pitch1 / 2);
  }

  /** `apply_yv411` (render.c:633-676): 8-bit 4:1:1.  Only `width / 4`
      whole groups of four are visited, so luma columns from
      `4 * (width / 4)` on are never written. */
  method ApplyYv411(ops: Ops, o: Overlay, f: Planes, pitch0: nat, pitch1: nat, width: nat, height: nat)
    returns (r: Planes)
    requires FrameFits(S411, o, width, height, f, pitch0, pitch1)
    ensures Composited(ops, Depth8, S411, o, width, height, f, pitch0, pitch1, r)
    ensures pitch0 > 0 ==> forall t | 0 <= t < |f.y| && t % pitch0 >= 4 * (width / 4) :: r.y[t] == f.y[t]
  {
    r := Composite(ops, Depth8, S411, o, width, height, f, pitch0, pitch1);
    forall t | 0 <= t < |f.y| && pitch0 > 0 && t % pitch0 >= 4 * (width / 4)
      ensures r.y[t] == f.y[t]
    {
      var s := Locate(t, pitch0, 4);
      RightOfGroups(s.col, s.lane, width / 4);
    }
  }

  /** A column at or past `4 * groups` belongs to group `groups` or later. */
  lemma RightOfGroups(col: nat, lane: nat, groups: nat)
    requires lane < 4 && col * 4 + lane >= 4 * groups
    ensures col >= groups
  {
    MulStep(col, groups, 4);
  }

  /** `apply_yv16` (render.c:678-724): 8-bit 4:2:2. */
  method ApplyYv16(ops: Ops, o: Overlay, f: Planes, pitch0: nat, pitch1: nat, width: nat, height: nat)
    returns (r: Planes)
    requires FrameFits(S422, o, width, height, f, pitch0, pitch1)
    ensures Composited(ops, Depth8, S422, o, width, height, f, pitch0, pitch1, r)
  {
    r := Composite(ops, Depth8, S422, o, width, height, f, pitch0, pitch1);
  }

  /** `apply_yuv422` (render.c:726-780): 16-bit 4:2:2; both byte pitches
      are halved to count samples. */
  method ApplyYuv422(ops: Ops, o: Overlay, f: Planes, pitch0: nat, pitch1: nat, width: nat, height: nat)
    returns (r: Planes)
    requires FrameFits(S422, o, width, height, f, pitch0 / 2, pitch1 / 2)
    ensures Composited(ops, Depth16, S422, o, width, height, f,
                       SamplePitch(Depth16, pitch0), SamplePitch(Depth16, pitch1), r)
  {
    r := Composite(ops, Depth16, S422, o, width, height, f, pitch0 / 2, pitch1 / 2);
  }

  /** `apply_yv24` (render.c:782-813): 8-bit 4:4:4; all three planes are
      addressed with `pitch[0]`. */
  method ApplyYv24(ops: Ops, o: Overlay, f: Planes, pitch0: nat, width: nat, height: nat)
    returns (r: Planes)
    requires FrameFits(S444, o, width, height, f, pitch0, pitch0)
    ensures Composited(ops, Depth8, S444, o, width, height, f, pitch0, pitch0, r)
  {
    r := Composite(ops, Depth8, S444, o, width, height, f, pitch0, pitch0);
  }

  /** `apply_yuv444` (render.c:815-854): 16-bit 4:4:4 (also planar RGB);
      all three planes are addressed with half of `pitch[0]`. */
  method ApplyYuv444(ops: Ops, o: Overlay, f: Planes, pitch0: nat, width: nat, height: nat)
    returns (r: Planes)
    requires FrameFits(S444, o, width, height, f, pitch0 / 2, pitch0 / 2)
    ensures Composited(ops, Depth16, S444, o, width, height, f,
                       SamplePitch(Depth16, pitch0), SamplePitch(Depth16, pitch0), r)
  {
    r := Composite(ops, Depth16, S444, o, width, height, f, pitch0 / 2, pitch0 / 2);
  }

  /** `apply_y8` (render.c:856-877): 8-bit luma only. */
  method ApplyY8(ops: Ops, o: Overlay, plane: seq<int>, pitch0: nat, width: nat, height: nat)
    returns (out: seq<int>)
    requires SourceFits(S444, o, width, height) && LumaFits(S444, width, height, |plane|, pitch0)
    ensures |out| == |plane|
    ensures forall t | 0 <= t < |plane| :: out[t] == LumaSample(ops, Depth8, S444, o, width, height, plane, pitch0, t)
  {
    out := BlendLuma(ops, Depth8, S444, o, width, height, plane, pitch0);
  }

  /** `apply_y` (render.c:879-907): 16-bit luma only; the byte pitch is
      halved to count samples. */
  method ApplyY(ops: Ops, o: Overlay, plane: seq<int>, pitch0: nat, width: nat, height: nat)
    returns (out: seq<int>)
    requires SourceFits(S444, o, width, height) && LumaFits(S444, width, height, |plane|, pitch0 / 2)
    ensures |out| == |plane|
    ensures forall t | 0 <= t < |plane| ::
              out[t] == LumaSample(ops, Depth16, S444, o, width, height, plane, SamplePitch(Depth16, pitch0), t)
  {
    out := BlendLuma(ops, Depth16, S444, o, width, height, plane, pitch0 / 2);
  }

  /** Summed coverage is non-zero exactly when some member of the group is
      covered, because coverage is never negative. */
  lemma GroupCoverageNonZero(smp: Sampling, o: Overlay, width: nat, gy: nat, gx: nat)
    requires forall dy: nat, dx: nat | dy < smp.Rows() && dx < smp.Cols() :: Member(o.a, smp, width, gy, gx, dy, dx) >= 0
    ensures GroupCoverage(smp, o, width, gy, gx) != 0 <==>
            exists dy: nat, dx: nat | dy < smp.Rows() && dx < smp.Cols() :: Member(o.a, smp, width, gy, gx, dy, dx) != 0
  {
  }
}

=== FILE: primitives.dfy ===
/** Sample widths, C integer conversions, and the per-pixel arithmetic the
    renderer takes from its header.

    The header's macros (colour-channel extraction, rounding divisions, the
    blend family) are not part of this model.  They enter as the function
    values of an `Ops` record, and `Ops.Valid` lists the only facts about
    them that the model relies on. */
module Primitives {

  /** Packed 32-bit glyph colours lie below this bound. */
  const ColorLimit: int := 0x1_0000_0000

  /** An unsigned byte (`uint8_t`). */
  type Byte = x: int | 0 <= x < 256

  /** An unsigned 32-bit value (`uint32_t`), such as a packed colour. */
  type Uint32 = x: int | 0 <= x < ColorLimit

  /** 2^n, the value of `1 << n`. */
  function Pow2(n: nat): (r: nat)
    ensures r > n
  {
    if n == 0 then 1 else 2 * Pow2(n - 1)
  }

  /** Adding exponents multiplies powers. */
  lemma {:induction false} Pow2Add(a: nat, b: nat)
    ensures Pow2(a + b) == Pow2(a) * Pow2(b)
  {
    if b > 0 {
      Pow2Add(a, b - 1);
      assert Pow2(a + b) == 2 * Pow2(a + b - 1);
    }
  }

  /** Width of the samples of a plane: the 8-bit routines use `uint8_t`, the
      wide ones `uint16_t`. */
  datatype Depth = Depth8 | Depth16 {

    /** Number of distinct sample values. */
    function Modulus(): nat {
      if Depth8? then 256 else 65536
    }

    /** Bytes per sample: the 16-bit routines divide byte pitches by it. */
    function SampleBytes(): nat {
      if Depth8? then 1 else 2
    }
  }

  /** Samples per row of a buffer of depth `d` whose rows are `bytes` bytes
      apart: the 16-bit routines halve their byte pitches. */
  function SamplePitch(d: Depth, bytes: nat): nat {
    bytes / d.SampleBytes()
  }

  /** Whether `x` fits a sample of depth `d`. */
  predicate IsSample(d: Depth, x: int) {
    0 <= x < d.Modulus()
  }

  /** C conversion of an `int` into `uint8_t` or `uint16_t`: reduction
      modulo the number of sample values. */
  function Store(d: Depth, x: int): (r: int)
    ensures IsSample(d, r)
    ensures IsSample(d, x) ==> r == x
    ensures (x - r) % d.Modulus() == 0
  {
    x % d.Modulus()
  }

  /** C conversion of an `int` into `uint32_t`. */
  function Wrap32(x: int): (r: int)
    ensures 0 <= r < ColorLimit
    ensures 0 <= x < ColorLimit ==> r == x
    ensures (x - r) % ColorLimit == 0
  {
    x % ColorLimit
  }

  /** Reads element `i` of a plane; the routines' preconditions keep every
      read inside the plane, where this is plain indexing. */
  function Get(s: seq<int>, i: int): int {
    if 0 <= i < |s| then s[i] else 0
  }

  /** The header's per-pixel macros, as opaque functions:
      - `red`, `green`, `blue`, `alpha`: channels of a packed colour
        (`alpha` is the transparency the rasterizer reports);
      - `div255`, `div65536`: rounding divisions;
      - `scale(a, 255, d)`: combined coverage of a source with coverage `a`
        over a destination with coverage `d`;
      - `blend(a, c, d)`: an opaque destination `d` under colour `c` with
        coverage `a`;
      - `blend2`, `blend4`: the same for two or four (coverage, colour)
        pairs averaged into one chroma sample;
      - `dblend(a, c, da, dc, s)`: over-compositing onto a destination that
        has coverage `da`, with combined coverage `s`. */
  datatype Ops = Ops(
    red: int -> int,
    green: int -> int,
    blue: int -> int,
    alpha: int -> int,
    div255: int -> int,
    div65536: int -> int,
    scale: (int, int, int) -> int,
    blend: (int, int, int) -> int,
    blend2: (int, int, int, int, int) -> int,
    blend4: (int, int, int, int, int, int, int, int, int) -> int,
    dblend: (int, int, int, int, int) -> int)
  {
    /** The facts about the macros the model uses: the alpha channel of a
        colour is a byte; dividing zero gives zero; dividing a product of two
        bytes by 255 gives a byte; and combining two byte coverages stays
        within 255 * 255. */
    predicate Valid() {
      && (forall c | 0 <= c < ColorLimit :: 0 <= alpha(c) <= 255)
      && div255(0) == 0
      && (forall x | 0 <= x <= 255 * 255 :: 0 <= div255(x) <= 255)
      && (forall a, d | 0 <= a <= 255 && 0 <= d <= 255 :: 0 <= scale(a, 255, d) <= 255 * 255)
    }
  }
}
